=== FILE: README.md ===
# Zen Reset core, in Dafny

A model of the logic of the Zen Reset wellness app, with proofs about it.
The app is a React + Capacitor application. It keeps a reflection journal and a
consecutive-day reflection streak in the platform preference store, and
schedules a daily reflection reminder. It also offers several small practice
screens: a breathing exercise, a meditation countdown, lessons with a
key-point checklist, a guided-meditation player and a frequency-sound panel.
Each source file of the core is one Dafny module:

| module | file | source |
|---|---|---|
| `Common` | common.dfy | the `Option` and `Slot` datatypes, `Filter`, subsequences, distinctness |
| `Text` | text.dfy | JavaScript string primitives: `trim`, integer `toString`, `padStart`, splitting at `:` |
| `Storage` | storage.dfy | src/services/storageService.ts |
| `Notification` | notification.dfy | src/services/notificationService.ts |
| `Composer` | composer.dfy | src/components/EnhancedReflectionWriting.tsx |
| `BreathWork` | breathwork.dfy | src/pages/BreathWork.tsx |
| `MeditationTimer` | timer.dfy | src/components/MeditationTimer.tsx |
| `Lessons` | lessons.dfy | src/pages/LessonDetail.tsx |
| `GuidedMeditation` | guided.dfy | src/pages/GuidedMeditation.tsx |
| `WaveSounds` | wavesounds.dfy | src/pages/WaveFrequencySounds.tsx |

Modelling choices:
- **Stores.** Each key of a key-value store becomes a `Slot`. A slot is
  `Absent` (null or the empty string), `Unreadable` (the read or
  `JSON.parse` throws), `Stored(value)` (JSON of the expected shape), `Null`
  (the JSON literal `null`) or `Mistyped` (JSON of another top-level shape).
  The services hand `null` and mistyped values back as they are, so the
  operations that use them fail the way the code does: `.filter` on a
  non-array stored reflection list throws, and reading a field of `null`
  settings throws. JSON encoding is abstracted away.
- **Write failures.** A failing platform write is a boolean parameter.
  `saveReflection`, `deleteReflection` and `saveSettings` rethrow it as
  `Err(WriteFailed)`. `updateReflectionStreak` catches it and returns 1.
- **Calendar dates.** Dates are integer day numbers, so "yesterday" is
  `today - 1`.
- **Reminder clock.** Instants are integer milliseconds on a local clock with
  days of 86 400 000 ms.
- **Clock readings.** Readings the code takes (`Date.now()`, the ISO date,
  the locale time, the current instant) are inputs.
- **Timers.** Each `setInterval` firing is one application of a `Step`
  function.
- **Event handlers.** A React handler is a pure function from the page state
  to the new page state.

Two consequences of the code's error handling that the model keeps:
- `updateReflectionStreak` never throws. Its catch block returns 1, so when
  a save fails only in the streak update, the composer still clears its form
  and calls `onSave`.
- `saveReflection` and `deleteReflection` rethrow every error, a failed write
  as well as the `TypeError` of a stored list that is not an array. Deleting
  an id that is not stored is not an error and leaves the list as it was.

## Model

| member | source | states |
|---|---|---|
| Common.Filter | src/components/EnhancedReflectionWriting.tsx:97 | `Array.prototype.filter`: every kept element is in the input and passes the test, every passing input element is kept, the result is a subsequence of the input (kept elements in order, nothing extra), and nothing is dropped when every element passes |
| Text.Trim | src/components/EnhancedReflectionWriting.tsx:90 | `trim` returns a slice of its input with only whitespace cut off before and after it, and the slice neither starts nor ends with whitespace |
| Text.TrimIdempotent | src/components/EnhancedReflectionWriting.tsx:90-91 | a trimmed tag is already trimmed, so trimming it again changes nothing |
| Text.BlankIffAllWhitespace | src/components/EnhancedReflectionWriting.tsx:101 | `!content.trim()` holds exactly when every character of the content is whitespace |
| Text.NatToDecimal | src/components/MeditationTimer.tsx:42 | `n.toString()` of a whole number is a non-empty run of decimal digits; `DecimalRoundTrip` gives its value and `DecimalInjective` its uniqueness (the record id at src/components/EnhancedReflectionWriting.tsx:110 uses the same conversion) |
| Text.DecimalRoundTrip | src/components/EnhancedReflectionWriting.tsx:110 | the decimal text of a non-negative integer reads back as that integer and has no superfluous leading zero |
| Text.DecimalInjective | src/components/EnhancedReflectionWriting.tsx:110 | distinct `Date.now()` readings give distinct reflection ids |
| Text.PadStart | src/components/MeditationTimer.tsx:42 | `padStart` yields at least `width` characters, ends with the input, and every character in front of the input is the pad character |
| Text.LeadingZeros | src/components/MeditationTimer.tsx:42 | any number of '0' in front of a digit string keeps it a digit string of the same value |
| Text.PadZeroValue | src/components/MeditationTimer.tsx:42 | padding a digit string with '0' keeps it a digit string of the same value |
| Text.SplitAtColon | src/services/notificationService.ts:20 | there is no split exactly when the text has no ':'; otherwise the text is the first half, ':' and the second half, and the first half holds no ':' |
| Storage.WithoutId | src/services/storageService.ts:46 | the filter keeps every record without the id and only those, in their order, and drops exactly as many records as carry the id |
| Storage.Upsert | src/services/storageService.ts:21 | the saved record comes first and is the only one with its id; the rest is the old list without that id |
| Storage.GetReflections | src/services/storageService.ts:33-41 | the stored list, or the empty list when nothing is stored or the read fails; a stored `null` or non-array comes back as no list |
| Storage.SaveReflection | src/services/storageService.ts:18-31 | a stored value that is not a list makes `.filter` throw, and a failed write is rethrown; in both cases nothing changes; otherwise the stored list becomes the upsert of the record, and the settings are untouched |
| Storage.DeleteReflection | src/services/storageService.ts:43-56 | a stored value that is not a list or a failed write is rethrown and nothing changes; otherwise the stored list loses exactly the records with the id, and the settings are untouched |
| Storage.SaveThenGet | src/services/storageService.ts:18-41 | after a save, reading returns the record first, exactly once by id, followed by every other old record in the old order |
| Storage.UpsertKeepsIdsUnique | src/services/storageService.ts:21 | saving preserves the invariant that no two stored reflections share an id |
| Storage.WithoutIdKeepsIdsUnique | src/services/storageService.ts:46 | deleting preserves the unique-id invariant |
| Storage.UniqueIdsCountAtMostOne | src/services/storageService.ts:21 | under the unique-id invariant an id occurs at most once |
| Storage.StoreKeepsIdsUnique | src/services/storageService.ts:18-56 | both store operations carry the unique-id invariant from the store before to the store after |
| Storage.WithoutIdIdempotent | src/services/storageService.ts:46 | deleting an id twice is deleting it once |
| Storage.SaveTwiceSameId | src/services/storageService.ts:18-31 | two saves with the same id leave the list the second save alone would have produced |
| Storage.DeleteThenGet | src/services/storageService.ts:43-56 | after a delete no record carries the id, the rest keeps its order, and deleting an absent id changes nothing |
| Storage.GetSettings | src/services/storageService.ts:71-79 | the stored settings object, or `{}` when nothing is stored, the read fails or the JSON has another shape; a stored `null` comes back as `null` |
| Storage.SaveSettings | src/services/storageService.ts:59-69 | a failed write is rethrown and nothing changes; otherwise reading the settings gives the object written, and the reflections are untouched |
| Storage.LastDate | src/services/storageService.ts:86 | `settings.lastReflectionDate` is a day exactly when the key holds one, and then it is that day |
| Storage.StoredStreak | src/services/storageService.ts:87 | `settings.reflectionStreak || 0`: the stored count, and 0 when the key is missing |
| Storage.StreakKeysRoundTrip | src/services/storageService.ts:104-108 | merging today and the new streak into any settings object reads back as that day and that streak |
| Storage.NextStreak | src/services/storageService.ts:87-102 | same day: the stored streak; last activity yesterday: one more; anything else: a fresh streak of 1 |
| Storage.UpdateReflectionStreak | src/services/storageService.ts:82-115 | same day: return the stored streak without writing; otherwise write today and the new streak merged into the settings, every other key unchanged; `null` settings or a failed write return 1 and change nothing |
| Storage.GetReflectionStreak | src/services/storageService.ts:117-125 | the stored streak, or 0 when there is no settings object or no streak in it |
| Storage.StreakScenario | src/services/storageService.ts:82-125 | from empty settings, activity on days d, d, d+1, d+3 gives streaks 1, 1, 2, 1 |
| Storage.SettingsAfterStep | src/services/storageService.ts:104-108 | each successful update records its day and the streak `NextStreak` computes from the settings before it |
| Storage.SettingsAfterRunLength | src/services/storageService.ts:82-115 | from settings with no last day, the settings after a history hold its last day and the run length counted step by step as `NextStreak` counts |
| Storage.RunLengthCounts | src/services/storageService.ts:89-102 | in a non-decreasing history that run length is the block of consecutive calendar days ending at the last day, all of which occur in the history |
| Storage.StreakCountsConsecutiveDays | src/services/storageService.ts:82-115 | starting from settings with no last day, over any non-decreasing history of activity days, the stored streak k counts the consecutive days ending at the last one: each of the last k days had activity and the day before them did not |
| Notification.OffsetInDay | src/services/notificationService.ts:22-23 | `setHours(h, m, 0, 0)` advances midnight by a non-negative offset; for a valid clock time it is h whole hours and m whole minutes with zero seconds, within the day |
| Notification.FieldNumber | src/services/notificationService.ts:20 | a field is a number exactly when it is all digits, and then it reads as its decimal value, the empty field as 0 |
| Notification.ParseReminderTime | src/services/notificationService.ts:20 | text without ':' has no minutes and gives no time |
| Notification.ParseDigitFields | src/services/notificationService.ts:20 | two digit fields joined by ':', followed by nothing or by further ':'-separated text, read as those two numbers |
| Notification.ParsedTimeHasDigitFields | src/services/notificationService.ts:20 | conversely, every text that parses is two digit fields joined by ':' followed by nothing or by ':' and more, and reads as the values of those fields |
| Notification.ParseClockFields | src/services/notificationService.ts:20 | two digit fields that read as a clock time's hours and minutes parse, joined by ':', to that clock time |
| Notification.ParseFormatClock | src/services/notificationService.ts:20 | the "HH:MM" text of a clock time parses back to that clock time |
| Notification.NextOccurrence | src/services/notificationService.ts:21-28 | the scheduled instant is after now; for a valid time it is at most one day after now and has the requested time of day |
| Notification.NextOccurrenceIsFirst | src/services/notificationService.ts:21-28 | no instant strictly between now and the scheduled instant has the requested time of day, so the scheduled one is the first |
| Notification.ScheduleReflectionReminder | src/services/notificationService.ts:15-50 | no permission, an unparseable time or a failed scheduling call changes nothing; otherwise the one pending reminder is at the next occurrence, and the time text is stored only after scheduling succeeded, with the other keys unchanged |
| Notification.CancelReflectionReminder | src/services/notificationService.ts:52-59 | a failed cancel changes nothing; otherwise no reminder is pending; a successful removal deletes exactly the reminder key, and a failed removal, which is caught, leaves the stored preferences as they were |
| Notification.GetStoredReminderTime | src/services/notificationService.ts:61-69 | the stored text exactly when it is present and the read succeeds, null otherwise |
| Notification.ScheduleThenCancel | src/services/notificationService.ts:15-69 | when every call succeeds, scheduling makes the stored time readable, and cancelling makes it null again with nothing pending |
| Composer.MoodValuesAreOneToFive | src/components/EnhancedReflectionWriting.tsx:24-30 | the mood buttons carry the values 1 to 5, one value each |
| Composer.EmptyFormWellFormed | src/components/EnhancedReflectionWriting.tsx:33-36 | the form mounts with blank content, no mood and a well-formed (empty) tag list |
| Composer.SelectMood | src/components/EnhancedReflectionWriting.tsx:202-205 | clicking the button at position i (shown from 5 down to 1) selects mood 5 - i and changes nothing else |
| Composer.AddTag | src/components/EnhancedReflectionWriting.tsx:89-94 | a blank or duplicate input changes nothing; otherwise the trimmed input is appended and the input is cleared |
| Composer.AppendKeepsTagsWellFormed | src/components/EnhancedReflectionWriting.tsx:90-91 | appending a non-empty trimmed tag that is not yet present keeps the tags distinct, non-empty and trimmed |
| Composer.RemoveTag | src/components/EnhancedReflectionWriting.tsx:96-98 | the tag disappears, every other tag stays in its order, and removing an absent tag changes nothing |
| Composer.AddTagKeepsTagsWellFormed | src/components/EnhancedReflectionWriting.tsx:89-94 | adding keeps the tags distinct, non-empty and trimmed |
| Composer.RemoveTagKeepsTagsWellFormed | src/components/EnhancedReflectionWriting.tsx:96-98 | removing keeps the tags distinct, non-empty and trimmed |
| Composer.AddThenRemoveTag | src/components/EnhancedReflectionWriting.tsx:89-98 | removing a tag just added restores the tag list |
| Composer.BuildReflection | src/components/EnhancedReflectionWriting.tsx:109-120 | the record has the clock id, the trimmed non-empty content, the mood unless none (or 0) is selected, and the tags unless there are none |
| Composer.HandleSave | src/components/EnhancedReflectionWriting.tsx:100-142 | blank content touches nothing; a failed write or a stored list that is not an array keeps the form after one call; a successful save calls save, streak and onSave in that order, stores the new record first followed by the old list without that id, records today when the streak write succeeds on settings that are not `null`, and clears content, mood and tags but not the tag input |
| Composer.UsePrompt | src/components/EnhancedReflectionWriting.tsx:144-150 | blank content is replaced by the prompt on its own line; other content is kept and followed by a blank line and the prompt on its own line; either way the text ends with the prompt verbatim and a line break |
| Composer.UsePromptBlank | src/components/EnhancedReflectionWriting.tsx:144-150 | the text after using a prompt is blank exactly when both the content and the prompt were blank |
| BreathWork.PatternsWellFormed | src/pages/BreathWork.tsx:13-46 | every offered pattern has inhale and exhale phases of at least one second |
| BreathWork.Tick | src/pages/BreathWork.tsx:54-74 | within a phase a tick counts one second; at the phase's end it enters the next phase that lasts, at 0; the seconds counter stays inside its phase |
| BreathWork.Remaining | src/pages/BreathWork.tsx:183-186 | while the counter is inside the phase, the circle's number plus the seconds already counted make up the phase length, so it lies between 1 and that length; it is 0 otherwise |
| BreathWork.CountWithinPhase | src/pages/BreathWork.tsx:56-73 | inside a phase, k ticks add k seconds and keep the phase |
| BreathWork.PhaseCompletes | src/pages/BreathWork.tsx:59-71 | a phase of d seconds hands over to the next lasting phase after exactly d ticks |
| BreathWork.CycleReturnsToStart | src/pages/BreathWork.tsx:54-74 | after one breath's worth of ticks (inhale + hold + exhale + rest) the exercise is back at the start of inhale |
| BreathWork.StartPause | src/pages/BreathWork.tsx:81-88 | only the active flag flips |
| BreathWork.Reset | src/pages/BreathWork.tsx:90-95 | stop at the start of inhale, keeping the pattern |
| BreathWork.SelectPattern | src/pages/BreathWork.tsx:156-159 | select the pattern, stopped at the start of inhale |
| BreathWork.Step | src/pages/BreathWork.tsx:50-79 | the interval ticks only while active and keeps the page invariant |
| BreathWork.SessionInvariant | src/pages/BreathWork.tsx:8-11 | the page mounts stopped at the start of inhale inside the invariant, every page operation keeps it, so the circle never shows 0 or more than the phase length |
| MeditationTimer.Mount | src/components/MeditationTimer.tsx:12-13 | the timer starts stopped with the whole duration left |
| MeditationTimer.Tick | src/components/MeditationTimer.tsx:25-31 | at one second or less it stops at 0 and fires `onComplete`; otherwise it counts one second down without firing |
| MeditationTimer.Step | src/components/MeditationTimer.tsx:20-37 | the interval only runs while running with time left; it keeps the time left within the duration, and a completion leaves it stopped at 0 |
| MeditationTimer.PlayPause | src/components/MeditationTimer.tsx:45-47 | only the running flag flips |
| MeditationTimer.Reset | src/components/MeditationTimer.tsx:49-52 | stop with the whole duration left |
| MeditationTimer.ChangeDuration | src/components/MeditationTimer.tsx:15-18 | a new duration stops the timer with that whole duration left |
| MeditationTimer.Run | src/components/MeditationTimer.tsx:20-37 | any number of seconds keeps the time left within the duration |
| MeditationTimer.StoppedStaysPut | src/components/MeditationTimer.tsx:23 | a stopped timer never changes and never completes |
| MeditationTimer.RunsToCompletion | src/components/MeditationTimer.tsx:20-37 | started with j seconds left, after j or more seconds the timer is stopped at 0 and `onComplete` fired exactly once |
| MeditationTimer.NoEarlyCompletion | src/components/MeditationTimer.tsx:25-31 | before its last second a started timer has counted down without completing |
| MeditationTimer.FormatTimeRoundTrip | src/components/MeditationTimer.tsx:39-43 | the `mm:ss` text reads back as minutes times 60 plus seconds, for every number of seconds |
| MeditationTimer.Field | src/components/MeditationTimer.tsx:42 | a field is at least two digits reading as its number, exactly two below 100, and starts with '0' only when padded |
| MeditationTimer.FormatTime | src/components/MeditationTimer.tsx:39-43 | the text has at least five characters with ':' before the two seconds digits, and exactly five below 100 minutes |
| MeditationTimer.JoinShowsTime | src/components/MeditationTimer.tsx:42 | a padded minutes field and a two-digit seconds field joined by ':' show the numbers they read as |
| MeditationTimer.FormatTimeFields | src/components/MeditationTimer.tsx:39-43 | the digits after the ':' read as the seconds modulo 60 and the digits before it as the whole minutes, padded to two digits and without a further leading zero |
| MeditationTimer.ParseTimeFields | src/components/MeditationTimer.tsx:39-43 | two non-empty digit fields joined by ':' read back as minutes times 60 plus seconds |
| Lessons.LessonDataConsistent | src/pages/LessonDetail.tsx:21-130 | the table holds lessons "1" to "6", each filed under its own id with four key points |
| Lessons.LookupLesson | src/pages/LessonDetail.tsx:139 | a lesson is found exactly for a present id in the table, and it is the lesson with that id; a name every object inherits (`constructor`, `toString`, ...) yields a value that is not a lesson; anything else yields nothing |
| Lessons.CompletedIds | src/pages/LessonDetail.tsx:146-147 | nothing stored reads as the empty list, a stored list as itself, and `null`, a value of another shape or a failed read give no list that `includes` can search |
| Lessons.Mount | src/pages/LessonDetail.tsx:139-149 | missing or unknown ids show the not-found branch; an inherited name fails; a lesson starts with every key point unticked, completed exactly when its id is stored, and fails when the stored list cannot be used |
| Lessons.TogglePoint | src/pages/LessonDetail.tsx:151-155 | exactly the clicked key point flips |
| Lessons.TogglePointTwice | src/pages/LessonDetail.tsx:151-155 | flipping the same key point twice changes nothing |
| Lessons.CompleteLesson | src/pages/LessonDetail.tsx:157-171 | without a lesson, with a stored list that cannot be used, or with a failing write nothing changes; an already stored id changes nothing; otherwise the id is appended and the page marked completed, and any change marks the page completed |
| Lessons.CompleteLessonIdempotent | src/pages/LessonDetail.tsx:157-171 | completing twice is completing once, and after a successful write no further completion changes anything |
| Lessons.CompleteLessonKeepsIdsDistinct | src/pages/LessonDetail.tsx:160-163 | the completed list never gains a duplicate |
| Lessons.MountThenComplete | src/pages/LessonDetail.tsx:141-171 | after opening a lesson and completing it, it shows as completed and its id is stored |
| GuidedMeditation.Next | src/pages/GuidedMeditation.tsx:48-50 | next moves to the following session, wrapping from the last to the first |
| GuidedMeditation.Previous | src/pages/GuidedMeditation.tsx:44-46 | previous moves to the preceding session, wrapping from the first to the last |
| GuidedMeditation.NextPreviousInverse | src/pages/GuidedMeditation.tsx:44-50 | next and previous undo each other |
| GuidedMeditation.NextTimesAdvances | src/pages/GuidedMeditation.tsx:48-50 | k presses of next move k places round the list |
| GuidedMeditation.FullRoundReturns | src/pages/GuidedMeditation.tsx:48-50 | one press per session brings the player back to its session |
| GuidedMeditation.PressNext | src/pages/GuidedMeditation.tsx:48-50 | the track advances cyclically and stays valid; play and mute are untouched |
| GuidedMeditation.PressPrevious | src/pages/GuidedMeditation.tsx:44-46 | the track goes back cyclically and stays valid; play and mute are untouched |
| GuidedMeditation.SelectTrack | src/pages/GuidedMeditation.tsx:126 | clicking a session card makes it current |
| GuidedMeditation.PlayPause | src/pages/GuidedMeditation.tsx:39-42 | only the playing flag flips |
| GuidedMeditation.ToggleMute | src/pages/GuidedMeditation.tsx:113-114 | only the muted flag flips |
| GuidedMeditation.PlayerInvariant | src/pages/GuidedMeditation.tsx:8-10 | the player mounts stopped and unmuted on the first session, and every control keeps the current track a session of the list |
| WaveSounds.ToggleSound | src/pages/WaveFrequencySounds.tsx:50-58 | toggling the active sound silences the page; toggling any other makes it the only one playing; the mute flag is untouched |
| WaveSounds.ToggleMute | src/pages/WaveFrequencySounds.tsx:85 | only the mute flag flips |
| WaveSounds.ToggleRoundTrips | src/pages/WaveFrequencySounds.tsx:50-58 | from silence, toggling a sound twice is silence; switching from one sound to another leaves only the second playing |

## Left out

- Platform I/O is reduced to its observable state and success flags. This covers the Capacitor preference store, local notifications, `localStorage` and the permission request: `requestPermission` (src/services/notificationService.ts:5-13) becomes the `granted` flag, which is false when the request throws.
- Asynchrony is left out. Each async operation runs to completion before the next starts, so interleaved saves are not modelled.
- React effects, re-renders and `setInterval` scheduling are not modelled beyond one `Step` per firing.
- JSON encoding and decoding are abstracted by `Slot`. Only the top-level shape of a stored value is modelled: an array whose elements are not reflection records, or settings whose fields hold other types, are not.
- Storage.UpdateReflectionStreak: the source reads the clock twice, once for `today` (src/services/storageService.ts:84) and again for `yesterday` (line 93) after awaiting the settings. The model takes one day number and uses `today - 1` as yesterday. A call that starts on day D and reaches line 93 on day D+1, with the last reflection on D-1, resets the streak to 1 in the source; the model cannot show this.
- Storage.UpdateReflectionStreak: settings stored as a JSON string or array are spread into the written object as index keys (`{...settings}`); the model reads them as `{}` and writes only the two streak keys.
- Storage.StoredStreak: a `reflectionStreak` that is not a number reads as 0. The source would apply JavaScript's `||` and `+ 1` coercions to it.
- Storage.LastDate: dates are day numbers, not `toDateString()` texts. Time zones, and text that no date produces, are not modelled.
- Notification.ParseReminderTime: `Number` accepts more syntax than digit runs (surrounding whitespace, signs, decimals, exponents, hexadecimal). The model reads such fields as not a number.
- Notification.ScheduleReflectionReminder: an unparseable time gives the plugin an invalid date, and what the plugin does with it is not part of this model. The model treats that call as failing, so nothing changes.
- Notification.NextOccurrence: daylight-saving shifts are not modelled (every day is 86 400 000 ms). The `repeats: true` re-firing of the notification after its first instant is also left out.
- Composer: voice dictation, the random choice of prompt, toasts and the `isSaving` flag are left out. They are browser APIs, randomness or presentation.
- Composer.HandleSave: the new random prompt chosen after a save is not modelled.
- Lessons: the lessons' introduction, practice and conclusion texts are left out, since only the key points and ids affect behaviour. Navigation and toasts are also left out.
- Lessons.CompleteLesson: with a stored list that cannot be used, or when `localStorage.setItem` throws, the source handler throws. The model leaves page and store as they were, which is what the page shows after the throw.
- Lessons.CompletedIds: a stored JSON string has its own `includes`, a substring search, so the source would not throw on it; the model treats every stored value that is not an array as unusable.
- Lessons.LookupLesson: the inherited names are those of `Object.prototype` in current engines; what rendering such a value does beyond failing is not modelled.
- BreathWork: `getCircleScale` and the phase instruction texts are presentation and are left out.
- MeditationTimer: the progress percentage is floating point and is left out. A duration of 0 divides by zero there.
- The sound, lesson-list, library and other presentation pages are not part of this model. The reflection search and filter have no implementation in the source.

=== FILE: breathwork.dfy ===
/** The breathing exercise of src/pages/BreathWork.tsx: a once-per-second tick
    over `(phase, seconds)` driven by a pattern of four phase durations, the
    countdown shown in the circle, reset, start/pause and pattern selection. */
module BreathWork {

  datatype Phase = Inhale | Hold | Exhale | Rest

  /** A breathing pattern: the length in seconds of each phase. */
  datatype Pattern = Pattern(name: string, inhale: nat, hold: nat, exhale: nat, rest: nat)

  /** The patterns offered, in display order. */
  const Patterns: seq<Pattern> := [
    Pattern("4-7-8 Breathing", 4, 7, 8, 0),
    Pattern("Box Breathing", 4, 4, 4, 4),
    Pattern("Triangle Breathing", 4, 4, 4, 0),
    Pattern("Energizing Breath", 2, 0, 6, 0)
  ]

  function Duration(p: Pattern, ph: Phase): nat {
    match ph
    case Inhale => p.inhale
    case Hold => p.hold
    case Exhale => p.exhale
    case Rest => p.rest
  }

  /** Seconds in one full breath. */
  function Period(p: Pattern): nat {
    p.inhale + p.hold + p.exhale + p.rest
  }

  /** Hold and rest may be skipped; inhale and exhale always last. */
  predicate WellFormed(p: Pattern) {
    p.inhale >= 1 && p.exhale >= 1
  }

  /** Every offered pattern is well formed. */
  lemma PatternsWellFormed()
    ensures forall i :: 0 <= i < |Patterns| ==> WellFormed(Patterns[i])
  {
  }

  /** The position within a breath: the phase and the seconds spent in it. */
  datatype Cycle = Cycle(phase: Phase, seconds: nat)

  /** The cycle invariant: the seconds counter lies inside the current phase. */
  predicate InPhase(p: Pattern, c: Cycle) {
    c.seconds < Duration(p, c.phase)
  }

  /** The phase after `ph` in the order inhale, hold, exhale, rest, inhale. */
  function Successor(ph: Phase): Phase {
    match ph
    case Inhale => Hold
    case Hold => Exhale
    case Exhale => Rest
    case Rest => Inhale
  }

  /** The next phase of `p` after `ph` that lasts at least a second, for a
      well-formed pattern (where at most one phase in a row is skipped). */
  function NextLastingPhase(p: Pattern, ph: Phase): Phase {
    if Duration(p, Successor(ph)) > 0 then Successor(ph) else Successor(Successor(ph))
  }

  /** One interval tick: count the second, and when the phase's length is
      reached move on to the next phase with the counter back at 0. */
  function Tick(p: Pattern, c: Cycle): (r: Cycle)
    ensures c.seconds + 1 < Duration(p, c.phase) ==> r == Cycle(c.phase, c.seconds + 1)
    ensures WellFormed(p) && c.seconds + 1 >= Duration(p, c.phase) ==>
      r == Cycle(NextLastingPhase(p, c.phase), 0)
    ensures WellFormed(p) && r.phase != c.phase ==> Duration(p, r.phase) > 0
    ensures WellFormed(p) && InPhase(p, c) ==> InPhase(p, r)
  {
    var s := c.seconds + 1;
    if c.phase == Inhale && s >= p.inhale then Cycle(if p.hold > 0 then Hold else Exhale, 0)
    else if c.phase == Hold && s >= p.hold then Cycle(Exhale, 0)
    else if c.phase == Exhale && s >= p.exhale then Cycle(if p.rest > 0 then Rest else Inhale, 0)
    else if c.phase == Rest && s >= p.rest then Cycle(Inhale, 0)
    else Cycle(c.phase, s)
  }

  /** The number in the circle: `max(0, duration(phase) - seconds)`. */
  function Remaining(p: Pattern, c: Cycle): (n: nat)
    ensures InPhase(p, c) ==> 1 <= n <= Duration(p, c.phase)
    ensures !InPhase(p, c) ==> n == 0
    ensures InPhase(p, c) ==> n + c.seconds == Duration(p, c.phase)
  {
    if Duration(p, c.phase) > c.seconds then Duration(p, c.phase) - c.seconds else 0
  }

  /** `n` consecutive ticks. */
  function Iterate(p: Pattern, c: Cycle, n: nat): Cycle
    decreases n
  {
    if n == 0 then c else Iterate(p, Tick(p, c), n - 1)
  }

  lemma {:induction false} IterateAdd(p: Pattern, c: Cycle, a: nat, b: nat)
    ensures Iterate(p, c, a + b) == Iterate(p, Iterate(p, c, a), b)
    decreases a
  {
    if a > 0 {
      IterateAdd(p, Tick(p, c), a - 1, b);
    }
  }

  /** Inside a phase the ticks just count the seconds. */
  lemma {:induction false} CountWithinPhase(p: Pattern, ph: Phase, j: nat, k: nat)
    requires j + k < Duration(p, ph)
    ensures Iterate(p, Cycle(ph, j), k) == Cycle(ph, j + k)
    decreases k
  {
    if k > 0 {
      CountWithinPhase(p, ph, j + 1, k - 1);
    }
  }

  /** A phase that lasts `d >= 1` seconds hands over to the next lasting phase
      after exactly `d` ticks. */
  lemma {:induction false} PhaseCompletes(p: Pattern, ph: Phase)
    requires WellFormed(p) && Duration(p, ph) >= 1
    ensures Iterate(p, Cycle(ph, 0), Duration(p, ph)) == Cycle(NextLastingPhase(p, ph), 0)
  {
    var d := Duration(p, ph);
    IterateAdd(p, Cycle(ph, 0), d - 1, 1);
    CountWithinPhase(p, ph, 0, d - 1);
  }

  /** Starting a breath at the beginning of the inhale phase, one full period of
      ticks brings the exercise back to the beginning of the inhale phase. */
  lemma {:induction false} CycleReturnsToStart(p: Pattern)
    requires WellFormed(p)
    ensures Iterate(p, Cycle(Inhale, 0), Period(p)) == Cycle(Inhale, 0)
  {
    var start := Cycle(Inhale, 0);
    PhaseCompletes(p, Inhale);
    PhaseCompletes(p, Exhale);
    if p.hold > 0 {
      PhaseCompletes(p, Hold);
      IterateAdd(p, start, p.inhale, p.hold);
      IterateAdd(p, start, p.inhale + p.hold, p.exhale);
    } else {
      IterateAdd(p, start, p.inhale, p.exhale);
    }
    var afterExhale := p.inhale + p.hold + p.exhale;
    assert Iterate(p, start, afterExhale) == Cycle(NextLastingPhase(p, Exhale), 0);
    if p.rest > 0 {
      PhaseCompletes(p, Rest);
      IterateAdd(p, start, afterExhale, p.rest);
    }
  }

  // ---------------------------------------------------------------------
  // The page

  /** The page state: running or not, the selected pattern and the cycle. */
  datatype Session = Session(active: bool, selected: nat, cycle: Cycle)

  /** The page invariant: a valid pattern index and the cycle inside its phase. */
  predicate SessionOk(s: Session) {
    s.selected < |Patterns| && InPhase(Patterns[s.selected], s.cycle)
  }

  /** The state the page mounts with. */
  const Initial: Session := Session(false, 0, Cycle(Inhale, 0))

  /** `handleStartPause`. */
  function StartPause(s: Session): (r: Session)
    ensures r.active == !s.active && r.selected == s.selected && r.cycle == s.cycle
  {
    s.(active := !s.active)
  }

  /** `handleReset`: stop, and go back to the start of the inhale phase. */
  function Reset(s: Session): (r: Session)
    ensures !r.active && r.cycle == Cycle(Inhale, 0) && r.selected == s.selected
    ensures s.selected < |Patterns| ==> SessionOk(r)
  {
    Session(false, s.selected, Cycle(Inhale, 0))
  }

  /** Clicking the pattern at `index`: select it and reset. */
  function SelectPattern(s: Session, index: nat): (r: Session)
    requires index < |Patterns|
    ensures r == Session(false, index, Cycle(Inhale, 0))
    ensures SessionOk(r)
  {
    Reset(s.(selected := index))
  }

  /** One firing of the interval: it only runs while the exercise is active. */
  function Step(s: Session): (r: Session)
    requires s.selected < |Patterns|
    ensures !s.active ==> r == s
    ensures s.active ==>
      (r.active && r.selected == s.selected && r.cycle == Tick(Patterns[s.selected], s.cycle))
    ensures SessionOk(s) ==> SessionOk(r)
  {
    if s.active then s.(cycle := Tick(Patterns[s.selected], s.cycle)) else s
  }

  /** The page mounts in the invariant, every operation of the page keeps it,
      and with it the circle never shows 0 or more than the phase length. */
  lemma SessionInvariant(s: Session, index: nat)
    requires SessionOk(s) && index < |Patterns|
    ensures SessionOk(Initial) && !Initial.active
    ensures SessionOk(StartPause(s)) && SessionOk(Reset(s)) && SessionOk(Step(s))
    ensures SessionOk(SelectPattern(s, index))
    ensures var c := Step(s).cycle; var p := Patterns[s.selected];
      1 <= Remaining(p, c) <= Duration(p, c.phase)
  {
  }
}

=== FILE: common.dfy ===
/** Shared vocabulary of the model: an optional value and the small sequence
    notions (filtering, subsequences, distinctness) that the stores and the
    form editors are specified with. */
module Common {

  /** An optional value; `None` stands for JavaScript's `null` and `undefined`. */
  datatype Option<+T> = None | Some(value: T)

  /** What reading one key of a key-value store yields after `JSON.parse`:
      nothing stored (null or the empty string), a read or parse that throws,
      a decoded value of the expected shape, the JSON literal `null`, or JSON
      of another shape (a boolean, a number, a string, or an array where an
      object is expected and the reverse). */
  datatype Slot<T> = Absent | Unreadable | Stored(value: T) | Null | Mistyped

  /** True iff `xs` can be obtained from `ys` by deleting elements, that is,
      `xs` keeps some of the elements of `ys` in their original relative order. */
  predicate IsSubsequence<T(==)>(xs: seq<T>, ys: seq<T>)
    decreases |ys|
  {
    if xs == [] then true
    else if ys == [] then false
    else if xs[0] == ys[0] then IsSubsequence(xs[1..], ys[1..])
    else IsSubsequence(xs, ys[1..])
  }

  /** No element occurs twice. */
  predicate Distinct<T(==)>(xs: seq<T>) {
    forall i, j :: 0 <= i < j < |xs| ==> xs[i] != xs[j]
  }

  /** The elements of `xs` that satisfy `keep`, in order: the `Array.filter` idiom. */
  function Filter<T>(keep: T -> bool, xs: seq<T>): (r: seq<T>)
    ensures forall i :: 0 <= i < |r| ==> r[i] in xs && keep(r[i])
    ensures forall i :: 0 <= i < |xs| && keep(xs[i]) ==> xs[i] in r
    ensures IsSubsequence(r, xs)
    ensures |r| <= |xs|
    ensures (forall i :: 0 <= i < |xs| ==> keep(xs[i])) ==> r == xs
  {
    if xs == [] then []
    else if keep(xs[0]) then [xs[0]] + Filter(keep, xs[1..])
    else Filter(keep, xs[1..])
  }

  /** Filtering keeps distinct elements distinct. */
  lemma {:induction false} FilterDistinct<T>(keep: T -> bool, xs: seq<T>)
    requires Distinct(xs)
    ensures Distinct(Filter(keep, xs))
  {
    if xs != [] {
      assert Distinct(xs[1..]) by {
        forall i, j | 0 <= i < j < |xs[1..]| ensures xs[1..][i] != xs[1..][j] {
          assert xs[1..][i] == xs[i + 1] && xs[1..][j] == xs[j + 1];
        }
      }
      FilterDistinct(keep, xs[1..]);
      assert xs[0] !in xs[1..] by {
        forall k | 0 <= k < |xs[1..]| ensures xs[1..][k] != xs[0] {
          assert xs[1..][k] == xs[k + 1];
        }
      }
    }
  }
}

=== FILE: composer.dfy ===
/** The form logic of the reflection composer
    (src/components/EnhancedReflectionWriting.tsx): tag editing, mood
    selection, blank-content validation, construction of the saved record,
    the save sequence against the store, and appending the prompt.

    The clock readings a save makes (`Date.now()` twice, the ISO date and the
    locale time string) and today's day number are inputs of `HandleSave`. */
module Composer {
  import opened Common
  import opened Text
  import Storage

  /** One selectable mood button. */
  datatype MoodOption = MoodOption(caption: string, value: int)

  /** The mood buttons, in display order. */
  const MoodOptions: seq<MoodOption> := [
    MoodOption("Great", 5),
    MoodOption("Good", 4),
    MoodOption("Okay", 3),
    MoodOption("Low", 2),
    MoodOption("Difficult", 1)
  ]

  /** The selectable mood values are exactly 1 to 5, one button each. */
  lemma MoodValuesAreOneToFive()
    ensures (set o | o in MoodOptions :: o.value) == {1, 2, 3, 4, 5}
    ensures forall i, j :: 0 <= i < j < |MoodOptions| ==> MoodOptions[i].value != MoodOptions[j].value
  {
    assert MoodOptions[0].value == 5 && MoodOptions[1].value == 4 && MoodOptions[2].value == 3;
    assert MoodOptions[3].value == 2 && MoodOptions[4].value == 1;
  }

  /** The editable state of the composer. */
  datatype Form = Form(content: string, mood: Option<int>, tags: seq<string>, currentTag: string)

  /** The state the composer mounts with. */
  const EmptyForm: Form := Form("", None, [], "")

  /** Clicking the mood button at `index`. */
  function SelectMood(f: Form, index: nat): (r: Form)
    requires index < |MoodOptions|
    ensures r.mood == Some(5 - index)
    ensures r.content == f.content && r.tags == f.tags && r.currentTag == f.currentTag
  {
    f.(mood := Some(MoodOptions[index].value))
  }

  // ---------------------------------------------------------------------
  // Tags

  /** The tag-list invariant: no duplicates, every tag non-empty and trimmed. */
  predicate TagsWellFormed(tags: seq<string>) {
    && Distinct(tags)
    && forall i :: 0 <= i < |tags| ==> tags[i] != [] && IsTrimmed(tags[i])
  }

  /** `addTag`: append the trimmed input when it is non-blank and not already a
      tag, and only then clear the input; otherwise change nothing. */
  function AddTag(f: Form): (r: Form)
    ensures IsBlank(f.currentTag) || Trim(f.currentTag) in f.tags ==> r == f
    ensures !IsBlank(f.currentTag) && Trim(f.currentTag) !in f.tags ==>
      && |r.tags| == |f.tags| + 1
      && r.tags[..|f.tags|] == f.tags
      && r.tags[|f.tags|] == Trim(f.currentTag)
      && r.currentTag == ""
      && r.content == f.content && r.mood == f.mood
  {
    var t := Trim(f.currentTag);
    if t != [] && t !in f.tags then f.(tags := f.tags + [t], currentTag := "") else f
  }

  /** `removeTag(t)`: drop `t` from the tags, keeping the others in order. */
  function RemoveTag(f: Form, t: string): (r: Form)
    ensures t !in r.tags
    ensures forall i :: 0 <= i < |f.tags| && f.tags[i] != t ==> f.tags[i] in r.tags
    ensures forall i :: 0 <= i < |r.tags| ==> r.tags[i] in f.tags
    ensures IsSubsequence(r.tags, f.tags)
    ensures t !in f.tags ==> r == f
    ensures r.content == f.content && r.mood == f.mood && r.currentTag == f.currentTag
  {
    f.(tags := Filter(x => x != t, f.tags))
  }

  /** The composer mounts with a well-formed, empty tag list. */
  lemma EmptyFormWellFormed()
    ensures TagsWellFormed(EmptyForm.tags) && IsBlank(EmptyForm.content) && EmptyForm.mood.None?
  {
  }

  /** Appending a trimmed, non-empty tag that is not yet present keeps the
      tag list well formed. */
  lemma {:induction false} AppendKeepsTagsWellFormed(tags: seq<string>, t: string)
    requires TagsWellFormed(tags) && t != [] && IsTrimmed(t) && t !in tags
    ensures TagsWellFormed(tags + [t])
  {
    var u := tags + [t];
    forall i, j | 0 <= i < j < |u| ensures u[i] != u[j] {
      if j == |tags| {
        assert u[i] == tags[i];
      } else {
        assert u[i] == tags[i] && u[j] == tags[j];
      }
    }
    forall i | 0 <= i < |u| ensures u[i] != [] && IsTrimmed(u[i]) {
      if i < |tags| {
        assert u[i] == tags[i];
      }
    }
  }

  /** `addTag` keeps the tag list duplicate-free with trimmed, non-empty tags. */
  lemma {:induction false} AddTagKeepsTagsWellFormed(f: Form)
    requires TagsWellFormed(f.tags)
    ensures TagsWellFormed(AddTag(f).tags)
  {
    var t := Trim(f.currentTag);
    if t != [] && t !in f.tags {
      TrimIdempotent(f.currentTag);
      AppendKeepsTagsWellFormed(f.tags, t);
    }
  }

  /** `removeTag` keeps the tag list duplicate-free with trimmed, non-empty tags. */
  lemma RemoveTagKeepsTagsWellFormed(f: Form, t: string)
    requires TagsWellFormed(f.tags)
    ensures TagsWellFormed(RemoveTag(f, t).tags)
  {
    FilterDistinct(x => x != t, f.tags);
  }

  /** Adding a new tag and then removing it restores the tag list. */
  lemma {:induction false} AddThenRemoveTag(f: Form)
    requires !IsBlank(f.currentTag) && Trim(f.currentTag) !in f.tags
    ensures RemoveTag(AddTag(f), Trim(f.currentTag)).tags == f.tags
  {
    var t := Trim(f.currentTag);
    FilterAppendOne(x => x != t, f.tags, t);
  }

  lemma {:induction false} FilterAppendOne(keep: string -> bool, xs: seq<string>, t: string)
    requires !keep(t)
    requires forall i :: 0 <= i < |xs| ==> keep(xs[i])
    ensures Filter(keep, xs + [t]) == xs
  {
    if xs != [] {
      assert (xs + [t])[1..] == xs[1..] + [t];
      FilterAppendOne(keep, xs[1..], t);
    }
  }

  // ---------------------------------------------------------------------
  // Saving

  /** The clock readings of one save: `Date.now()` for the id and again for
      `createdAt`, the ISO calendar date, the locale time text, and the local
      day number the streak uses. */
  datatype SaveClock = SaveClock(idMs: nat, createdAt: int, date: string, time: string, today: int)

  /** The outcomes of the two store writes a save performs. */
  datatype SaveEnv = SaveEnv(saveOk: bool, streakOk: bool)

  /** The calls a save makes, in order. */
  datatype Call = SaveCall(record: Storage.Reflection) | StreakCall | OnSave(record: Storage.Reflection)

  /** The record `handleSave` builds: id from the clock, trimmed content, the
      mood unless none is selected, and the tags unless there are none. */
  function BuildReflection(f: Form, clock: SaveClock): (r: Storage.Reflection)
    requires !IsBlank(f.content)
    ensures r.id == NatToDecimal(clock.idMs)
    ensures r.content != [] && IsTrimmed(r.content) && r.content == Trim(f.content)
    ensures r.mood.Some? <==> f.mood.Some? && f.mood.value != 0
    ensures r.mood.Some? ==> r.mood == f.mood
    ensures r.tags.None? <==> f.tags == []
    ensures r.tags.Some? ==> r.tags.value == f.tags
    ensures r.date == clock.date && r.time == Some(clock.time) && r.createdAt == clock.createdAt
  {
    TrimIdempotent(f.content);
    Storage.Reflection(
      id := NatToDecimal(clock.idMs),
      date := clock.date,
      content := Trim(f.content),
      time := Some(clock.time),
      mood := if f.mood.Some? && f.mood.value != 0 then f.mood else None,
      tags := if |f.tags| > 0 then Some(f.tags) else None,
      createdAt := clock.createdAt)
  }

  /** What a press of the save button leaves behind. */
  datatype SaveOutcome = SaveOutcome(form: Form, prefs: Storage.Prefs, calls: seq<Call>)

  /** `handleSave`. Blank content is rejected before any store access. Otherwise
      the record is saved, then the streak updated, then `onSave` called, and
      only then are content, mood and tags cleared. A `saveReflection` that
      throws (a failed write, or a stored value that is not a list) aborts the
      rest and keeps the form. `updateReflectionStreak` catches its
      own errors, so its failure does not stop the save. */
  function HandleSave(f: Form, p: Storage.Prefs, clock: SaveClock, env: SaveEnv): (o: SaveOutcome)
    ensures IsBlank(f.content) ==> o == SaveOutcome(f, p, [])
    ensures !IsBlank(f.content) && (!env.saveOk || Storage.GetReflections(p).None?) ==>
      o == SaveOutcome(f, p, [SaveCall(BuildReflection(f, clock))])
    ensures !IsBlank(f.content) && env.saveOk && Storage.GetReflections(p).Some? ==>
      var rec := BuildReflection(f, clock);
      && o.calls == [SaveCall(rec), StreakCall, OnSave(rec)]
      && o.form == Form("", None, [], f.currentTag)
      && Storage.GetReflections(o.prefs)
           == Some(Storage.Upsert(Storage.GetReflections(p).value, rec))
      && |Storage.GetReflections(o.prefs).value| >= 1
      && Storage.GetReflections(o.prefs).value[0] == rec
      && Storage.IdCount(Storage.GetReflections(o.prefs).value, rec.id) == 1
      && rec.content == Trim(f.content)
      && (env.streakOk && !p.settings.Null? ==>
            Storage.GetSettings(o.prefs).Some?
            && Storage.LastDate(Storage.GetSettings(o.prefs).value) == Some(clock.today))
  {
    if IsBlank(f.content) then SaveOutcome(f, p, [])
    else
      var rec := BuildReflection(f, clock);
      match Storage.SaveReflection(p, rec, env.saveOk)
      case Err(_) => SaveOutcome(f, p, [SaveCall(rec)])
      case Ok(p1) =>
        var u := Storage.UpdateReflectionStreak(p1, clock.today, env.streakOk);
        SaveOutcome(f.(content := "", mood := None, tags := []), u.prefs,
                    [SaveCall(rec), StreakCall, OnSave(rec)])
  }

  /** `usePrompt`: append the prompt after a blank line to non-blank content;
      replace blank content by the prompt. Either way the prompt ends the text
      on its own line. */
  function UsePrompt(content: string, prompt: string): (r: string)
    ensures IsBlank(content) ==> r == prompt + "\n"
    ensures !IsBlank(content) ==>
      |r| == |content| + |prompt| + 3
      && r[..|content|] == content && r[|content|..] == "\n\n" + prompt + "\n"
    ensures |r| > |prompt| && r[|r| - |prompt| - 1..] == prompt + "\n"
  {
    var tail := prompt + "\n";
    if IsBlank(content) then tail
    else
      var r := content + ("\n\n" + tail);
      assert r[..|content|] == content;
      assert r[|content|..] == "\n\n" + tail;
      assert r[|r| - |tail|..] == tail;
      r
  }

  /** A text ending in `tail` is all whitespace only if `tail` is. */
  lemma {:induction false} WhitespaceSuffix(r: string, tail: string)
    requires |tail| <= |r| && r[|r| - |tail|..] == tail
    requires forall k :: 0 <= k < |r| ==> IsWhitespace(r[k])
    ensures forall k :: 0 <= k < |tail| ==> IsWhitespace(tail[k])
  {
    assert forall k :: 0 <= k < |tail| ==> tail[k] == r[|r| - |tail| + k];
  }

  /** The text after `usePrompt` is blank exactly when both the content and
      the prompt are blank, so a prompt with words always enables saving. */
  lemma {:induction false} UsePromptBlank(content: string, prompt: string)
    ensures IsBlank(UsePrompt(content, prompt)) <==> IsBlank(content) && IsBlank(prompt)
  {
    var r := UsePrompt(content, prompt);
    BlankIffAllWhitespace(r);
    BlankIffAllWhitespace(content);
    BlankIffAllWhitespace(prompt);
    if IsBlank(r) {
      WhitespaceSuffix(r, prompt + "\n");
      assert forall k :: 0 <= k < |prompt| ==> prompt[k] == (prompt + "\n")[k];
    } else if IsBlank(content) {
      assert r == prompt + "\n";
    }
  }
}

=== FILE: guided.dfy ===
/** The guided-meditation player of src/pages/GuidedMeditation.tsx: cyclic
    next/previous over the session list, direct selection, and the
    play/pause and mute toggles. */
module GuidedMeditation {

  datatype GuidedSession = GuidedSession(title: string, duration: string, instructor: string)

  /** `guidedSessions`, in display order. */
  const Sessions: seq<GuidedSession> := [
    GuidedSession("Morning Mindfulness", "10 min", "Sarah Chen"),
    GuidedSession("Deep Relaxation", "15 min", "Marcus Reid"),
    GuidedSession("Anxiety Relief", "12 min", "Dr. Lisa Park"),
    GuidedSession("Sleep Preparation", "20 min", "Michael Stone")
  ]

  /** `handleNext`'s updater: `prev < n - 1 ? prev + 1 : 0`. */
  function Next(i: int): (r: int)
    ensures i >= 0 ==> 0 <= r < |Sessions|
    ensures 0 <= i < |Sessions| ==> r == (i + 1) % |Sessions|
  {
    if i < |Sessions| - 1 then i + 1 else 0
  }

  /** `handlePrevious`'s updater: `prev > 0 ? prev - 1 : n - 1`. */
  function Previous(i: int): (r: int)
    ensures i <= |Sessions| ==> 0 <= r < |Sessions|
    ensures 0 <= i < |Sessions| ==> r == (i - 1 + |Sessions|) % |Sessions|
  {
    if i > 0 then i - 1 else |Sessions| - 1
  }

  /** Next and previous undo each other on every valid track. */
  lemma NextPreviousInverse(i: int)
    requires 0 <= i < |Sessions|
    ensures Previous(Next(i)) == i
    ensures Next(Previous(i)) == i
  {
  }

  /** `k` presses of next. */
  function NextTimes(i: int, k: nat): int
    decreases k
  {
    if k == 0 then i else NextTimes(Next(i), k - 1)
  }

  /** `k` presses of next move `k` places round the list. */
  lemma {:induction false} NextTimesAdvances(i: int, k: nat)
    requires 0 <= i < |Sessions|
    ensures NextTimes(i, k) == (i + k) % |Sessions|
    decreases k
  {
    if k > 0 {
      NextTimesAdvances(Next(i), k - 1);
      assert |Sessions| == 4;
    }
  }

  /** Pressing next once per session returns to the starting session. */
  lemma FullRoundReturns(i: int)
    requires 0 <= i < |Sessions|
    ensures NextTimes(i, |Sessions|) == i
  {
    NextTimesAdvances(i, |Sessions|);
  }

  // ---------------------------------------------------------------------
  // The player

  datatype Player = Player(track: int, playing: bool, muted: bool)

  /** The player invariant: the current track is a session of the list. */
  predicate PlayerOk(p: Player) {
    0 <= p.track < |Sessions|
  }

  /** The state the page mounts with. */
  const InitialPlayer: Player := Player(0, false, false)

  function PressNext(p: Player): (r: Player)
    ensures PlayerOk(p) ==> PlayerOk(r)
    ensures r.playing == p.playing && r.muted == p.muted
    ensures PlayerOk(p) ==> r.track == (p.track + 1) % |Sessions|
  {
    p.(track := Next(p.track))
  }

  function PressPrevious(p: Player): (r: Player)
    ensures PlayerOk(p) ==> PlayerOk(r)
    ensures r.playing == p.playing && r.muted == p.muted
    ensures PlayerOk(p) ==> r.track == (p.track - 1 + |Sessions|) % |Sessions|
  {
    p.(track := Previous(p.track))
  }

  /** Clicking the session card at `index`. */
  function SelectTrack(p: Player, index: nat): (r: Player)
    requires index < |Sessions|
    ensures PlayerOk(r) && r.track == index
    ensures r.playing == p.playing && r.muted == p.muted
  {
    p.(track := index)
  }

  /** `handlePlayPause`: only the playing flag changes. */
  function PlayPause(p: Player): (r: Player)
    ensures r.playing == !p.playing && r.track == p.track && r.muted == p.muted
  {
    p.(playing := !p.playing)
  }

  /** The mute button: only the muted flag changes. */
  function ToggleMute(p: Player): (r: Player)
    ensures r.muted == !p.muted && r.track == p.track && r.playing == p.playing
  {
    p.(muted := !p.muted)
  }

  /** The player mounts on a track of the list, and every control keeps it on
      one. */
  lemma PlayerInvariant(p: Player, index: nat)
    requires PlayerOk(p) && index < |Sessions|
    ensures PlayerOk(InitialPlayer) && !InitialPlayer.playing && !InitialPlayer.muted
    ensures PlayerOk(PressNext(p)) && PlayerOk(PressPrevious(p)) && PlayerOk(SelectTrack(p, index))
    ensures PlayerOk(PlayPause(p)) && PlayerOk(ToggleMute(p))
  {
  }
}

=== FILE: lessons.dfy ===
/** The lesson page of src/pages/LessonDetail.tsx: the lesson table and its
    lookup by route id, the key-point checklist, and the list of completed
    lesson ids kept under the `completedLessons` key of local storage. */
module Lessons {
  import opened Common

  /** A lesson, with the fields the page's logic reads. */
  datatype Lesson = Lesson(id: string, title: string, category: string, keyPoints: seq<string>)

  /** `lessonData`, keyed by lesson id. */
  const LessonData: map<string, Lesson> := map[
    "1" := Lesson("1", "Introduction to Mindfulness", "basics", [
      "Mindfulness is about present-moment awareness",
      "It involves observing without judging",
      "Regular practice builds mental resilience",
      "Can be applied to any daily activity"]),
    "2" := Lesson("2", "Breathing Techniques", "breathing", [
      "Deep breathing activates the parasympathetic nervous system",
      "The 4-7-8 technique is great for relaxation",
      "Box breathing helps with focus and concentration",
      "Breathing techniques can be used anywhere, anytime"]),
    "3" := Lesson("3", "Body Scan Meditation", "meditation", [
      "Start from the top of your head or your toes",
      "Notice sensations without trying to change them",
      "Tension often releases naturally with awareness",
      "Regular practice improves body-mind connection"]),
    "4" := Lesson("4", "Managing Stress", "wellness", [
      "Recognize early signs of stress in your body",
      "Use the STOP technique: Stop, Take a breath, Observe, Proceed",
      "Practice self-compassion during difficult moments",
      "Regular meditation builds stress resilience"]),
    "5" := Lesson("5", "Loving-Kindness Meditation", "meditation", [
      "Start by offering kindness to yourself",
      "Extend compassion to loved ones, then neutral people",
      "Eventually include difficult people in your practice",
      "Regular practice increases empathy and reduces stress"]),
    "6" := Lesson("6", "Mindful Walking", "movement", [
      "Focus on the sensation of your feet touching the ground",
      "Coordinate breath with steps for deeper practice",
      "Notice the environment without getting lost in thoughts",
      "Can be practiced anywhere, for any duration"])
  ]

  /** The table holds lessons "1" to "6"; each is filed under its own id and
      has four key points. */
  lemma LessonDataConsistent()
    ensures LessonData.Keys == {"1", "2", "3", "4", "5", "6"}
    ensures forall k :: k in LessonData ==> LessonData[k].id == k && |LessonData[k].keyPoints| == 4
  {
  }

  /** The property names every object literal inherits from `Object.prototype`.
      Indexing `lessonData` with one of them yields a truthy value that is not a
      lesson. */
  const InheritedNames: set<string> := {
    "constructor", "hasOwnProperty", "isPrototypeOf", "propertyIsEnumerable",
    "toLocaleString", "toString", "valueOf", "__proto__",
    "__defineGetter__", "__defineSetter__", "__lookupGetter__", "__lookupSetter__"}

  /** No lesson id shadows an inherited name. */
  lemma InheritedNamesAreNotLessons()
    ensures forall k :: k in InheritedNames ==> k !in LessonData
  {
  }

  /** What `id ? lessonData[id] : null` yields: nothing (an absent or empty id,
      or an unknown key), a lesson, or an inherited member of the object. */
  datatype Lookup = Missing | Known(lesson: Lesson) | Inherited

  /** The lookup by route id. An empty id is falsy and reads as missing; it is
      not a key of the table either. */
  function LookupLesson(id: Option<string>): (r: Lookup)
    ensures r.Known? <==> id.Some? && id.value in LessonData
    ensures r.Known? ==> r.lesson == LessonData[id.value] && r.lesson.id == id.value && |r.lesson.keyPoints| == 4
    ensures r.Inherited? <==> id.Some? && id.value in InheritedNames
    ensures r.Missing? <==> id.None? || (id.value !in LessonData && id.value !in InheritedNames)
  {
    LessonDataConsistent();
    InheritedNamesAreNotLessons();
    if id.None? || id.value == "" then Missing
    else if id.value in LessonData then Known(LessonData[id.value])
    else if id.value in InheritedNames then Inherited
    else Missing
  }

  // ---------------------------------------------------------------------
  // The page

  /** The page state: one tick per key point, and whether the lesson is done. */
  datatype Page = Page(checked: seq<bool>, isCompleted: bool)

  /** What the page shows: the not-found branch, the lesson, or nothing
      because rendering or the mount effect threw (an inherited member has no
      `content`; a stored list that is not an array has no `includes`). */
  datatype View = NotFound | Shown(lesson: Lesson, page: Page) | Failed

  /** The stored completed ids, `JSON.parse(getItem(...) || '[]')`, as far as
      `includes` and `push` can use them: nothing stored reads as the empty
      list, and `null`, a value of another shape or a failed read has no list. */
  function CompletedIds(stored: Slot<seq<string>>): (ids: Option<seq<string>>)
    ensures ids.Some? <==> stored.Absent? || stored.Stored?
    ensures stored.Absent? ==> ids == Some([])
    ensures stored.Stored? ==> ids == Some(stored.value)
  {
    match stored
    case Absent => Some([])
    case Stored(ids) => Some(ids)
    case Unreadable => None
    case Null => None
    case Mistyped => None
  }

  /** Opening the page for route id `id`: a missing or unknown id shows the
      not-found branch; an inherited name fails; a lesson shows with every key
      point unticked, completed exactly when its id is in the stored list, and
      fails when the stored list cannot be used. */
  function Mount(id: Option<string>, stored: Slot<seq<string>>): (v: View)
    ensures v.NotFound? <==> LookupLesson(id).Missing?
    ensures v.Shown? ==>
      && LookupLesson(id).Known?
      && v.lesson == LookupLesson(id).lesson
      && CompletedIds(stored).Some?
      && |v.page.checked| == |v.lesson.keyPoints|
      && (forall i :: 0 <= i < |v.page.checked| ==> !v.page.checked[i])
      && (v.page.isCompleted <==> v.lesson.id in CompletedIds(stored).value)
    ensures v.Failed? <==>
      LookupLesson(id).Inherited? || (LookupLesson(id).Known? && CompletedIds(stored).None?)
  {
    match LookupLesson(id)
    case Missing => NotFound
    case Inherited => Failed
    case Known(lesson) =>
      match CompletedIds(stored)
      case None => Failed
      case Some(ids) => Shown(lesson, Page(seq(|lesson.keyPoints|, _ => false), lesson.id in ids))
  }

  /** `handlePointCheck(index)`: flip the tick of one key point. */
  function TogglePoint(checked: seq<bool>, index: nat): (r: seq<bool>)
    requires index < |checked|
    ensures |r| == |checked|
    ensures r[index] == !checked[index]
    ensures forall i :: 0 <= i < |r| && i != index ==> r[i] == checked[i]
  {
    checked[index := !checked[index]]
  }

  /** Flipping the same tick twice changes nothing. */
  lemma TogglePointTwice(checked: seq<bool>, index: nat)
    requires index < |checked|
    ensures TogglePoint(TogglePoint(checked, index), index) == checked
  {
  }

  /** `handleCompleteLesson`: append the lesson's id to the stored list unless
      it is already there, and mark the page completed when it appends. Without
      a lesson nothing happens; a stored list that cannot be used makes the
      handler throw before it changes anything, and so does a failing
      `localStorage.setItem` (`writeOk` false), which throws before the page is
      marked completed. */
  function CompleteLesson(lesson: Option<Lesson>, page: Page, stored: Slot<seq<string>>, writeOk: bool)
    : (r: (Page, Slot<seq<string>>))
    ensures lesson.None? || CompletedIds(stored).None? ==> r == (page, stored)
    ensures lesson.Some? && CompletedIds(stored).Some? ==>
      var ids := CompletedIds(stored).value;
      && (lesson.value.id in ids ==> r == (page, stored))
      && (lesson.value.id !in ids && !writeOk ==> r == (page, stored))
      && (lesson.value.id !in ids && writeOk ==>
            r.1 == Stored(ids + [lesson.value.id]) && r.0 == page.(isCompleted := true))
    ensures r != (page, stored) ==> writeOk && r.0.isCompleted
    ensures writeOk && lesson.Some? && CompletedIds(stored).Some? ==>
      r.1.Stored? && lesson.value.id in r.1.value
  {
    if lesson.None? then (page, stored)
    else match CompletedIds(stored)
      case None => (page, stored)
      case Some(ids) =>
        if lesson.value.id in ids || !writeOk then (page, stored)
        else (page.(isCompleted := true), Stored(ids + [lesson.value.id]))
  }

  /** Completing twice is completing once, and once the id is written no later
      completion changes anything, whether or not its write would succeed. */
  lemma CompleteLessonIdempotent(lesson: Option<Lesson>, page: Page, stored: Slot<seq<string>>,
                                 writeOk: bool, again: bool)
    ensures var r := CompleteLesson(lesson, page, stored, writeOk);
      CompleteLesson(lesson, r.0, r.1, writeOk) == r
    ensures var r := CompleteLesson(lesson, page, stored, writeOk);
      writeOk ==> CompleteLesson(lesson, r.0, r.1, again) == r
  {
  }

  /** Completing keeps the stored list free of duplicates. */
  lemma CompleteLessonKeepsIdsDistinct(lesson: Option<Lesson>, page: Page, stored: Slot<seq<string>>,
                                       writeOk: bool)
    requires stored.Stored? ==> Distinct(stored.value)
    ensures var r := CompleteLesson(lesson, page, stored, writeOk);
      r.1.Stored? ==> Distinct(r.1.value)
  {
  }

  /** After opening a lesson and completing it with a successful write, the
      page shows it as completed and its id is stored. */
  lemma MountThenComplete(id: Option<string>, stored: Slot<seq<string>>)
    requires Mount(id, stored).Shown?
    ensures var v := Mount(id, stored);
      var r := CompleteLesson(Some(v.lesson), v.page, stored, true);
      r.0.isCompleted && r.1.Stored? && v.lesson.id in r.1.value
  {
  }
}

=== FILE: notification.dfy ===
/** The daily reflection reminder of `NotificationService`
    (src/services/notificationService.ts): the "HH:MM" parse, the
    next-occurrence rule, and the order of the permission, scheduling and
    storage effects.

    Time is an abstract local clock in integer milliseconds with days of
    exactly 86 400 000 ms (no daylight-saving shifts); `now / DayMs` is the
    current day. The notification plugin and the preference store are
    modelled by their observable state and by success flags. */
module Notification {
  import opened Common
  import opened Text

  const DayMs: int := 86_400_000
  const HourMs: int := 3_600_000
  const MinuteMs: int := 60_000

  /** The preference key under which the reminder time text is kept. */
  const ReminderKey: string := "reflectionReminderTime"

  /** A time of day given as hours and minutes. */
  datatype ClockTime = ClockTime(hours: nat, minutes: nat)

  predicate ValidClock(c: ClockTime) {
    c.hours < 24 && c.minutes < 60
  }

  /** Milliseconds from midnight to `c`, seconds and milliseconds being zero.
      Out-of-range fields roll over into the following hours and days, as
      `setHours` does. */
  function OffsetInDay(c: ClockTime): (ms: int)
    ensures 0 <= ms
    ensures ValidClock(c) ==> ms < DayMs
    ensures ValidClock(c) ==>
      ms / HourMs == c.hours && ms % HourMs / MinuteMs == c.minutes && ms % MinuteMs == 0
  {
    c.hours * HourMs + c.minutes * MinuteMs
  }

  /** The time of day of an instant, in milliseconds since its midnight. */
  function TimeOfDay(t: int): int {
    t % DayMs
  }

  /** `Number(field)` for the fields the model reads: a run of decimal digits,
      the empty field reading as 0. Any other text is not a number. */
  function FieldNumber(field: string): (r: Option<nat>)
    ensures r.Some? <==> AllDigits(field)
    ensures field == [] ==> r == Some(0)
    ensures r.Some? ==> r.value == DecimalValue(field)
  {
    if AllDigits(field) then Some(DecimalValue(field)) else None
  }

  /** `time.split(':').map(Number)` destructured as `[hours, minutes]`: the first
      field is the hours and the second (up to a further ':' if any) the
      minutes. Without a ':' the minutes are missing, and a field that is not
      a number makes the whole time unusable. */
  function ParseReminderTime(time: string): (r: Option<ClockTime>)
    ensures ':' !in time ==> r.None?
  {
    match SplitAtColon(time)
    case None => None
    case Some((h, rest)) =>
      var m := match SplitAtColon(rest)
        case None => rest
        case Some((m1, _)) => m1;
      match (FieldNumber(h), FieldNumber(m))
      case (Some(hv), Some(mv)) => Some(ClockTime(hv, mv))
      case _ => None
  }

  /** The "HH:MM" text of a clock time, as a time input produces it. */
  function FormatClock(c: ClockTime): string {
    PadStart(NatToDecimal(c.hours), 2, '0') + ":" + PadStart(NatToDecimal(c.minutes), 2, '0')
  }

  /** The fields after the time: nothing, or a further ':' and whatever
      follows it, which `split` cuts off and the destructuring ignores. */
  predicate IsTail(tail: string) {
    tail == [] || tail[0] == ':'
  }

  /** Two digit fields joined by a colon read as those two numbers, whatever
      further fields follow. */
  lemma {:induction false} ParseDigitFields(h: string, m: string, tail: string)
    requires AllDigits(h) && AllDigits(m) && IsTail(tail)
    ensures ParseReminderTime(h + ":" + m + tail) == Some(ClockTime(DecimalValue(h), DecimalValue(m)))
  {
    DigitsHaveNoColon(h);
    DigitsHaveNoColon(m);
    assert h + ":" + m + tail == h + ":" + (m + tail);
    SplitJoin(h, m + tail);
    if tail == [] {
      assert m + tail == m;
    } else {
      assert m + tail == m + ":" + tail[1..];
      SplitJoin(m, tail[1..]);
    }
  }

  /** A time that parses is two digit fields joined by a colon, possibly
      followed by further fields, and it parses to their values; the lemma
      returns the three parts. With `ParseDigitFields` this pins the parse
      down in both directions. */
  lemma {:induction false} ParsedTimeHasDigitFields(time: string) returns (h: string, m: string, tail: string)
    requires ParseReminderTime(time).Some?
    ensures AllDigits(h) && AllDigits(m) && IsTail(tail)
    ensures time == h + ":" + m + tail
    ensures ParseReminderTime(time) == Some(ClockTime(DecimalValue(h), DecimalValue(m)))
  {
    var split := SplitAtColon(time).value;
    var rest := split.1;
    h := split.0;
    match SplitAtColon(rest)
    case None =>
      m, tail := rest, [];
      assert time == h + ":" + m + tail;
    case Some((m1, more)) =>
      m, tail := m1, ":" + more;
      assert time == h + ":" + m + tail;
    ParseDigitFields(h, m, tail);
  }

  /** Two digit fields that read as the fields of `c` parse to `c`. */
  lemma {:induction false} ParseClockFields(h: string, m: string, c: ClockTime)
    requires AllDigits(h) && AllDigits(m)
    requires DecimalValue(h) == c.hours && DecimalValue(m) == c.minutes
    ensures ParseReminderTime(h + ":" + m) == Some(c)
  {
    ParseDigitFields(h, m, "");
    assert h + ":" + m + "" == h + ":" + m;
  }

  /** Parsing the "HH:MM" text of a clock time gives that clock time back. */
  lemma {:induction false} ParseFormatClock(c: ClockTime)
    ensures ParseReminderTime(FormatClock(c)) == Some(c)
  {
    var hours, minutes := NatToDecimal(c.hours), NatToDecimal(c.minutes);
    PadZeroValue(hours, 2);
    PadZeroValue(minutes, 2);
    DecimalRoundTrip(c.hours);
    DecimalRoundTrip(c.minutes);
    ParseClockFields(PadStart(hours, 2, '0'), PadStart(minutes, 2, '0'), c);
  }

  /** The instant the reminder is scheduled for: today's midnight advanced by
      the clock time, or one day later when that is not after `now`. For a
      valid clock time this is its next occurrence after `now`. */
  function NextOccurrence(now: int, c: ClockTime): (at: int)
    ensures now < at
    ensures ValidClock(c) ==> at <= now + DayMs && TimeOfDay(at) == OffsetInDay(c)
  {
    var candidate := (now / DayMs) * DayMs + OffsetInDay(c);
    if candidate <= now then candidate + DayMs else candidate
  }

  /** For a valid clock time the scheduled instant is its first occurrence
      after `now`: no instant in between has that time of day. */
  lemma NextOccurrenceIsFirst(now: int, c: ClockTime, t: int)
    requires ValidClock(c) && now < t < NextOccurrence(now, c)
    ensures TimeOfDay(t) != OffsetInDay(c)
  {
    var midnight := (now / DayMs) * DayMs;
    var off := OffsetInDay(c);
    assert midnight <= now < midnight + DayMs;
    if midnight + off <= now {
      if t < midnight + DayMs {
        assert t % DayMs == t - midnight;
      } else {
        assert t % DayMs == t - midnight - DayMs;
      }
    } else {
      assert t % DayMs == t - midnight;
    }
  }

  // ---------------------------------------------------------------------
  // Effects

  /** What the reminder leaves behind: the pending notification (only one, id 1,
      so scheduling replaces it) and the preference store. */
  datatype ReminderState = ReminderState(pending: Option<int>, prefs: map<string, string>)

  /** The outcomes of the platform calls, in the order they are made: the
      permission request (false also when it throws), the scheduling call, and
      the preference write. */
  datatype Platform = Platform(granted: bool, scheduleOk: bool, storeOk: bool)

  /** `scheduleReflectionReminder(time)` at instant `now`. Without permission
      nothing happens. Otherwise the notification is scheduled at the next
      occurrence, and only after that succeeds is `time` stored. Every error is
      caught and logged. A time that does not read as two numbers gives an
      invalid date, whose scheduling the model counts as a failed call. */
  function ScheduleReflectionReminder(st: ReminderState, time: string, now: int, env: Platform)
    : (r: ReminderState)
    ensures !env.granted || !env.scheduleOk || ParseReminderTime(time).None? ==> r == st
    ensures env.granted && env.scheduleOk && ParseReminderTime(time).Some? ==>
      var c := ParseReminderTime(time).value;
      && r.pending == Some(NextOccurrence(now, c))
      && now < r.pending.value
      && (ValidClock(c) ==> r.pending.value <= now + DayMs && TimeOfDay(r.pending.value) == OffsetInDay(c))
      && (env.storeOk ==> r.prefs == st.prefs[ReminderKey := time])
      && (!env.storeOk ==> r.prefs == st.prefs)
    ensures r.prefs != st.prefs ==>
      && ReminderKey in r.prefs && r.prefs[ReminderKey] == time
      && (forall k :: k in st.prefs && k != ReminderKey ==> k in r.prefs && r.prefs[k] == st.prefs[k])
      && r.pending.Some?
  {
    if !env.granted then st
    else match ParseReminderTime(time)
      case None => st
      case Some(c) =>
        var at := NextOccurrence(now, c);
        if !env.scheduleOk then st
        else
          var scheduled := st.(pending := Some(at));
          if env.storeOk then scheduled.(prefs := st.prefs[ReminderKey := time]) else scheduled
  }

  /** `cancelReflectionReminder`: cancel notification 1, then remove the stored
      time. Errors are caught, so a failed cancel also skips the removal. */
  function CancelReflectionReminder(st: ReminderState, cancelOk: bool, removeOk: bool)
    : (r: ReminderState)
    ensures !cancelOk ==> r == st
    ensures cancelOk ==> r.pending.None?
    ensures cancelOk && removeOk ==>
      (ReminderKey !in r.prefs && forall k :: k != ReminderKey ==> (k in r.prefs <==> k in st.prefs))
    ensures r.prefs != st.prefs ==> r.pending.None? && r.prefs == st.prefs - {ReminderKey}
    ensures cancelOk && !removeOk ==> r.prefs == st.prefs
  {
    if !cancelOk then st
    else
      var cancelled := st.(pending := None);
      if removeOk then cancelled.(prefs := st.prefs - {ReminderKey}) else cancelled
  }

  /** `getStoredReminderTime`: the stored text, or null when it is missing or
      the read fails. */
  function GetStoredReminderTime(st: ReminderState, readOk: bool): (r: Option<string>)
    ensures r.Some? <==> readOk && ReminderKey in st.prefs
    ensures r.Some? ==> r.value == st.prefs[ReminderKey]
  {
    if readOk && ReminderKey in st.prefs then Some(st.prefs[ReminderKey]) else None
  }

  /** Scheduling then reading back, with every call succeeding, yields the
      reminder text; cancelling afterwards makes it read as null again. */
  lemma ScheduleThenCancel(st: ReminderState, time: string, now: int)
    requires ParseReminderTime(time).Some?
    ensures var s1 := ScheduleReflectionReminder(st, time, now, Platform(true, true, true));
      && GetStoredReminderTime(s1, true) == Some(time)
      && GetStoredReminderTime(CancelReflectionReminder(s1, true, true), true) == None
      && CancelReflectionReminder(s1, true, true).pending == None
  {
  }
}

=== FILE: storage.dfy ===
/** The reflection journal store and the consecutive-day streak tracker of
    `StorageService` (src/services/storageService.ts).

    The platform preference store is a key-value map; each of the two keys
    the service uses is modelled by a `Slot`, which abstracts both the raw
    string and its JSON decoding. Calendar dates are integer day numbers, so
    "yesterday" is `today - 1`. A failing platform write is an input flag. */
module Storage {
  import opened Common

  /** One journal entry. `date` and `time` are display strings the store never
      inspects; `mood` is on the 1..5 scale; `createdAt` is epoch milliseconds. */
  datatype Reflection = Reflection(
    id: string,
    date: string,
    content: string,
    time: Option<string>,
    mood: Option<int>,
    tags: Option<seq<string>>,
    createdAt: int)

  /** A value held in the settings object. `lastReflectionDate` holds a day,
      `reflectionStreak` a count; other application settings may hold anything. */
  datatype SettingValue = Day(day: int) | Count(n: int) | Text(s: string)

  type Settings = map<string, SettingValue>

  const LastReflectionDate: string := "lastReflectionDate"
  const ReflectionStreak: string := "reflectionStreak"

  /** The two keys of the preference store that the service owns:
      `reflections` (a JSON array) and `app_settings` (a JSON object). */
  datatype Prefs = Prefs(reflections: Slot<seq<Reflection>>, settings: Slot<Settings>)

  /** Why a store operation threw: a platform write that failed, or the
      `TypeError` of calling `.filter` on a stored value that is not an array.
      The service rethrows both to its caller. */
  datatype StorageError = WriteFailed | NotAList

  datatype Result<T> = Ok(value: T) | Err(error: StorageError)

  // ---------------------------------------------------------------------
  // The reflection list

  /** Number of records in `rs` that carry `id`. */
  function IdCount(rs: seq<Reflection>, id: string): nat {
    if rs == [] then 0
    else (if rs[0].id == id then 1 else 0) + IdCount(rs[1..], id)
  }

  /** The persisted-list invariant: no two records share an id. */
  predicate UniqueIds(rs: seq<Reflection>) {
    forall i, j :: 0 <= i < j < |rs| ==> rs[i].id != rs[j].id
  }

  /** `rs.filter(r => r.id !== id)`: every record not carrying `id`, in order. */
  function WithoutId(rs: seq<Reflection>, id: string): (r: seq<Reflection>)
    ensures forall i :: 0 <= i < |r| ==> r[i].id != id && r[i] in rs
    ensures forall i :: 0 <= i < |rs| && rs[i].id != id ==> rs[i] in r
    ensures IsSubsequence(r, rs)
    ensures |r| + IdCount(rs, id) == |rs|
    ensures IdCount(rs, id) == 0 ==> r == rs
  {
    if rs == [] then []
    else if rs[0].id != id then [rs[0]] + WithoutId(rs[1..], id)
    else WithoutId(rs[1..], id)
  }

  /** The list transformation of `saveReflection`: drop every record with the
      new record's id, then put the new record first. */
  function Upsert(rs: seq<Reflection>, r: Reflection): (out: seq<Reflection>)
    ensures |out| >= 1 && out[0] == r
    ensures IdCount(out, r.id) == 1
    ensures out[1..] == WithoutId(rs, r.id)
  {
    var rest := WithoutId(rs, r.id);
    NoIdNoCount(rest, r.id);
    assert ([r] + rest)[1..] == rest;
    [r] + rest
  }

  lemma {:induction false} NoIdNoCount(rs: seq<Reflection>, id: string)
    requires forall i :: 0 <= i < |rs| ==> rs[i].id != id
    ensures IdCount(rs, id) == 0
  {
    if rs != [] {
      NoIdNoCount(rs[1..], id);
    }
  }

  /** `getReflections`: the stored list, or the empty list when nothing is
      stored or the stored value cannot be read. `None` is a decoded value that
      is not an array (`null`, say), which the service hands back as it is. */
  function GetReflections(p: Prefs): (rs: Option<seq<Reflection>>)
    ensures p.reflections.Stored? ==> rs == Some(p.reflections.value)
    ensures p.reflections.Absent? || p.reflections.Unreadable? ==> rs == Some([])
    ensures rs.None? <==> p.reflections.Null? || p.reflections.Mistyped?
  {
    match p.reflections
    case Stored(v) => Some(v)
    case Absent => Some([])
    case Unreadable => Some([])
    case Null => None
    case Mistyped => None
  }

  /** `saveReflection`: read the list, upsert `r`, and write the whole list
      back. A stored value that is not a list makes `.filter` throw; that error
      and a failed write are rethrown, and the store stays as it was. */
  function SaveReflection(p: Prefs, r: Reflection, writeOk: bool): (res: Result<Prefs>)
    ensures GetReflections(p).None? ==> res == Err(NotAList)
    ensures GetReflections(p).Some? && !writeOk ==> res == Err(WriteFailed)
    ensures GetReflections(p).Some? && writeOk ==>
      && res.Ok? && res.value.settings == p.settings
      && GetReflections(res.value) == Some(Upsert(GetReflections(p).value, r))
  {
    match GetReflections(p)
    case None => Err(NotAList)
    case Some(rs) =>
      if writeOk then Ok(p.(reflections := Stored(Upsert(rs, r)))) else Err(WriteFailed)
  }

  /** `deleteReflection`: read the list, drop the records with `id`, and write
      the list back. A stored value that is not a list makes `.filter` throw;
      that error and a failed write are rethrown, and the store stays as it was. */
  function DeleteReflection(p: Prefs, id: string, writeOk: bool): (res: Result<Prefs>)
    ensures GetReflections(p).None? ==> res == Err(NotAList)
    ensures GetReflections(p).Some? && !writeOk ==> res == Err(WriteFailed)
    ensures GetReflections(p).Some? && writeOk ==>
      && res.Ok? && res.value.settings == p.settings
      && GetReflections(res.value) == Some(WithoutId(GetReflections(p).value, id))
  {
    match GetReflections(p)
    case None => Err(NotAList)
    case Some(rs) =>
      if writeOk then Ok(p.(reflections := Stored(WithoutId(rs, id)))) else Err(WriteFailed)
  }

  // ---------------------------------------------------------------------
  // Properties of the reflection list

  /** After a save, the stored list starts with the saved record, holds exactly
      one record with its id, and keeps every other record in its old order. */
  lemma SaveThenGet(p: Prefs, r: Reflection)
    requires GetReflections(p).Some?
    ensures var before := GetReflections(p).value;
      var rs := GetReflections(SaveReflection(p, r, true).value).value;
      && rs[0] == r
      && IdCount(rs, r.id) == 1
      && (forall i :: 0 <= i < |before| && before[i].id != r.id ==> before[i] in rs)
      && IsSubsequence(rs[1..], before)
  {
  }

  /** Upserting keeps the ids unique. */
  lemma {:induction false} UpsertKeepsIdsUnique(rs: seq<Reflection>, r: Reflection)
    requires UniqueIds(rs)
    ensures UniqueIds(Upsert(rs, r))
  {
    WithoutIdKeepsIdsUnique(rs, r.id);
  }

  /** Dropping records keeps the ids unique. */
  lemma {:induction false} WithoutIdKeepsIdsUnique(rs: seq<Reflection>, id: string)
    requires UniqueIds(rs)
    ensures UniqueIds(WithoutId(rs, id))
  {
    if rs != [] {
      assert UniqueIds(rs[1..]) by {
        forall i, j | 0 <= i < j < |rs[1..]| ensures rs[1..][i].id != rs[1..][j].id {
          assert rs[1..][i] == rs[i + 1] && rs[1..][j] == rs[j + 1];
        }
      }
      WithoutIdKeepsIdsUnique(rs[1..], id);
      if rs[0].id != id {
        var tail := WithoutId(rs[1..], id);
        forall k | 0 <= k < |tail| ensures tail[k].id != rs[0].id {
          var m :| 0 <= m < |rs[1..]| && rs[1..][m] == tail[k];
          assert rs[1..][m] == rs[m + 1];
        }
      }
    }
  }

  /** With unique ids a record with `id` occurs at most once. */
  lemma {:induction false} UniqueIdsCountAtMostOne(rs: seq<Reflection>, id: string)
    requires UniqueIds(rs)
    ensures IdCount(rs, id) <= 1
  {
    if rs != [] {
      assert UniqueIds(rs[1..]) by {
        forall i, j | 0 <= i < j < |rs[1..]| ensures rs[1..][i].id != rs[1..][j].id {
          assert rs[1..][i] == rs[i + 1] && rs[1..][j] == rs[j + 1];
        }
      }
      UniqueIdsCountAtMostOne(rs[1..], id);
      if rs[0].id == id {
        forall k | 0 <= k < |rs[1..]| ensures rs[1..][k].id != id {
          assert rs[1..][k] == rs[k + 1];
        }
        NoIdNoCount(rs[1..], id);
      }
    }
  }

  /** Saving the store keeps its ids unique: the list-level invariant
      carried through `saveReflection` and `deleteReflection`. */
  lemma StoreKeepsIdsUnique(p: Prefs, r: Reflection, id: string)
    requires GetReflections(p).Some? && UniqueIds(GetReflections(p).value)
    ensures UniqueIds(GetReflections(SaveReflection(p, r, true).value).value)
    ensures UniqueIds(GetReflections(DeleteReflection(p, id, true).value).value)
  {
    UpsertKeepsIdsUnique(GetReflections(p).value, r);
    WithoutIdKeepsIdsUnique(GetReflections(p).value, id);
  }

  /** Dropping an id twice is dropping it once. */
  lemma {:induction false} WithoutIdIdempotent(rs: seq<Reflection>, id: string)
    ensures WithoutId(WithoutId(rs, id), id) == WithoutId(rs, id)
  {
    var r := WithoutId(rs, id);
    NoIdNoCount(r, id);
  }

  /** Saving two records with the same id leaves the list the second save alone
      would have produced: one record with that id, equal to the second one. */
  lemma SaveTwiceSameId(p: Prefs, r1: Reflection, r2: Reflection)
    requires GetReflections(p).Some? && r1.id == r2.id
    ensures var p1 := SaveReflection(p, r1, true).value;
      GetReflections(SaveReflection(p1, r2, true).value)
        == GetReflections(SaveReflection(p, r2, true).value)
  {
    var rs := GetReflections(p).value;
    var once := Upsert(rs, r1);
    assert WithoutId(once, r2.id) == WithoutId(WithoutId(rs, r1.id), r1.id) by {
      assert once == [r1] + WithoutId(rs, r1.id);
      assert once[1..] == WithoutId(rs, r1.id);
    }
    WithoutIdIdempotent(rs, r1.id);
  }

  /** After a delete no record carries the id; deleting an id that is not
      present leaves the list as it was. */
  lemma DeleteThenGet(p: Prefs, id: string)
    requires GetReflections(p).Some?
    ensures var before := GetReflections(p).value;
      var rs := GetReflections(DeleteReflection(p, id, true).value).value;
      && IdCount(rs, id) == 0
      && (forall i :: 0 <= i < |rs| ==> rs[i].id != id)
      && IsSubsequence(rs, before)
      && (IdCount(before, id) == 0 ==> rs == before)
  {
    NoIdNoCount(GetReflections(DeleteReflection(p, id, true).value).value, id);
  }

  // ---------------------------------------------------------------------
  // Settings and the streak

  /** `getSettings`: the stored object, or `{}` when nothing is stored or the
      stored value cannot be read. `None` is the stored JSON `null`, handed back
      as it is. JSON of another shape is handed back too; the keys the service
      reads are missing from it, so it reads as `{}`. */
  function GetSettings(p: Prefs): (s: Option<Settings>)
    ensures p.settings.Stored? ==> s == Some(p.settings.value)
    ensures p.settings.Absent? || p.settings.Unreadable? || p.settings.Mistyped? ==> s == Some(map[])
    ensures s.None? <==> p.settings.Null?
  {
    match p.settings
    case Stored(v) => Some(v)
    case Null => None
    case _ => Some(map[])
  }

  /** `saveSettings`: replace the whole settings object; a failed write is
      rethrown and leaves the store as it was. */
  function SaveSettings(p: Prefs, s: Settings, writeOk: bool): (res: Result<Prefs>)
    ensures !writeOk ==> res == Err(WriteFailed)
    ensures writeOk ==> res.Ok? && GetSettings(res.value) == Some(s)
    ensures writeOk ==> res.value.reflections == p.reflections
  {
    if writeOk then Ok(p.(settings := Stored(s))) else Err(WriteFailed)
  }

  /** `settings.lastReflectionDate`, when it holds a day. */
  function LastDate(s: Settings): (d: Option<int>)
    ensures d.Some? <==> LastReflectionDate in s && s[LastReflectionDate].Day?
    ensures d.Some? ==> s[LastReflectionDate] == Day(d.value)
  {
    if LastReflectionDate in s && s[LastReflectionDate].Day? then Some(s[LastReflectionDate].day)
    else None
  }

  /** `settings.reflectionStreak || 0`. */
  function StoredStreak(s: Settings): (n: int)
    ensures ReflectionStreak in s && s[ReflectionStreak].Count? ==> s[ReflectionStreak] == Count(n)
    ensures ReflectionStreak !in s ==> n == 0
  {
    if ReflectionStreak in s && s[ReflectionStreak].Count? then s[ReflectionStreak].n else 0
  }

  /** Writing a day and a count under the two streak keys reads back as that
      day and that count, whatever the settings held before. */
  lemma {:induction false} StreakKeysRoundTrip(s: Settings, day: int, n: int)
    ensures var t := s[LastReflectionDate := Day(day)][ReflectionStreak := Count(n)];
      LastDate(t) == Some(day) && StoredStreak(t) == n
  {
    var t := s[LastReflectionDate := Day(day)][ReflectionStreak := Count(n)];
    assert LastReflectionDate != ReflectionStreak;
    assert t[LastReflectionDate] == Day(day);
  }

  /** The streak after activity on `today`: unchanged on the same day, one more
      after activity yesterday, otherwise a fresh streak of 1. */
  function NextStreak(s: Settings, today: int): (n: int)
    ensures LastDate(s) == Some(today) ==> n == StoredStreak(s)
    ensures LastDate(s) == Some(today - 1) ==> n == StoredStreak(s) + 1
    ensures LastDate(s) != Some(today) && LastDate(s) != Some(today - 1) ==> n == 1
  {
    if LastDate(s) == Some(today) then StoredStreak(s)
    else if LastDate(s) == Some(today - 1) then StoredStreak(s) + 1
    else 1
  }

  /** What `updateReflectionStreak` returns, with the store it leaves behind. */
  datatype StreakUpdate = StreakUpdate(streak: int, prefs: Prefs)

  /** `updateReflectionStreak` on day `today`. Same day: return the stored
      streak without writing. Otherwise write the settings with the new day and
      streak merged in. Errors are caught: reading a field of stored `null`
      throws, and so does a failed write; both return 1 and leave the store as
      it was. */
  function UpdateReflectionStreak(p: Prefs, today: int, writeOk: bool): (u: StreakUpdate)
    ensures u.prefs.reflections == p.reflections
    ensures GetSettings(p).None? ==> u == StreakUpdate(1, p)
    ensures var s := GetSettings(p);
      s.Some? && LastDate(s.value) == Some(today) ==> u.streak == StoredStreak(s.value) && u.prefs == p
    ensures var s := GetSettings(p);
      s.Some? && LastDate(s.value) != Some(today) && !writeOk ==> u == StreakUpdate(1, p)
    ensures var s := GetSettings(p);
      s.Some? && LastDate(s.value) != Some(today) && writeOk ==>
      && u.streak == NextStreak(s.value, today)
      && u.prefs.settings.Stored?
      && LastDate(u.prefs.settings.value) == Some(today)
      && StoredStreak(u.prefs.settings.value) == u.streak
      && (forall k :: k != LastReflectionDate && k != ReflectionStreak ==>
            (k in u.prefs.settings.value <==> k in s.value) &&
            (k in s.value ==> u.prefs.settings.value[k] == s.value[k]))
  {
    match GetSettings(p)
    case None => StreakUpdate(1, p)
    case Some(settings) =>
      if LastDate(settings) == Some(today) then StreakUpdate(StoredStreak(settings), p)
      else
        var n := NextStreak(settings, today);
        var merged := settings[LastReflectionDate := Day(today)][ReflectionStreak := Count(n)];
        StreakKeysRoundTrip(settings, today, n);
        match SaveSettings(p, merged, writeOk)
        case Ok(q) => StreakUpdate(n, q)
        case Err(_) => StreakUpdate(1, p)
  }

  /** `getReflectionStreak`: the stored streak, 0 when there is none, and 0
      from its catch when the stored settings are `null`. A pure read: it
      neither decays a stale streak nor touches the store. */
  function GetReflectionStreak(p: Prefs): (n: int)
    ensures (!p.settings.Stored? || ReflectionStreak !in p.settings.value) ==> n == 0
    ensures (p.settings.Stored? && ReflectionStreak in p.settings.value
             && p.settings.value[ReflectionStreak].Count?) ==> n == p.settings.value[ReflectionStreak].n
  {
    match GetSettings(p)
    case None => 0
    case Some(s) => StoredStreak(s)
  }

  /** From settings without a streak, a first reflection on a day gives 1,
      another one that day keeps 1, one on the next day gives 2, and one after
      a skipped day starts again at 1. */
  lemma StreakScenario(p: Prefs, d: int)
    requires GetSettings(p) == Some(map[])
    ensures GetReflectionStreak(p) == 0
    ensures var u1 := UpdateReflectionStreak(p, d, true);
      var u2 := UpdateReflectionStreak(u1.prefs, d, true);
      var u3 := UpdateReflectionStreak(u2.prefs, d + 1, true);
      var u4 := UpdateReflectionStreak(u3.prefs, d + 3, true);
      u1.streak == 1 && u2.streak == 1 && u3.streak == 2 && u4.streak == 1
      && GetReflectionStreak(u4.prefs) == 1
  {
  }

  // ---------------------------------------------------------------------
  // The streak over a history of activity days

  /** Settings after one successful `updateReflectionStreak` per day in `days`. */
  function SettingsAfter(s: Settings, days: seq<int>): Settings
    decreases |days|
  {
    if days == [] then s
    else
      var p := UpdateReflectionStreak(Prefs(Absent, Stored(SettingsAfter(s, days[..|days| - 1]))),
                                      days[|days| - 1], true).prefs;
      p.settings.value
  }

  /** The clock never runs backwards between two reflections. */
  predicate NonDecreasing(days: seq<int>) {
    forall i, j :: 0 <= i < j < |days| ==> days[i] <= days[j]
  }

  /** One more activity day moves the stored last day to that day and the
      stored streak to `NextStreak` of the settings before it. */
  lemma SettingsAfterStep(s: Settings, days: seq<int>)
    requires |days| >= 1
    ensures var before := SettingsAfter(s, days[..|days| - 1]);
      var after := SettingsAfter(s, days);
      && LastDate(after) == Some(days[|days| - 1])
      && StoredStreak(after) == NextStreak(before, days[|days| - 1])
  {
  }

  /** Dropping the last day of a non-decreasing history leaves a non-decreasing
      history. */
  lemma {:induction false} DropLastNonDecreasing(days: seq<int>)
    requires |days| >= 1 && NonDecreasing(days)
    ensures NonDecreasing(days[..|days| - 1])
  {
    var init := days[..|days| - 1];
    forall i, j | 0 <= i < j < |init| ensures init[i] <= init[j] {
      assert init[i] == days[i] && init[j] == days[j];
    }
  }

  /** The length of the run of consecutive days ending at the last day of a
      history, counted the way `NextStreak` counts: a repeated day keeps the
      run, the next calendar day extends it, any later day starts a new one. */
  function RunLength(days: seq<int>): int
    requires |days| >= 1
    decreases |days|
  {
    if |days| == 1 then 1
    else
      var prev, last, k := days[|days| - 2], days[|days| - 1], RunLength(days[..|days| - 1]);
      if last == prev then k else if last == prev + 1 then k + 1 else 1
  }

  /** A run of `k` consecutive days ending at the day `prev` before the last
      day `last` of a history becomes a run of `k2` days ending at `last`, where
      `k2` is what `NextStreak` makes of `k`. */
  lemma {:induction false} ExtendRun(days: seq<int>, k: int, k2: int)
    requires |days| >= 2 && NonDecreasing(days)
    requires var init, prev, last := days[..|days| - 1], days[|days| - 2], days[|days| - 1];
      && k >= 1
      && (forall d :: prev - k < d <= prev ==> d in init)
      && prev - k !in init
      && k2 == (if last == prev then k else if last == prev + 1 then k + 1 else 1)
    ensures var last := days[|days| - 1];
      && k2 >= 1
      && (forall d :: last - k2 < d <= last ==> d in days)
      && last - k2 !in days
  {
    var init, prev, last := days[..|days| - 1], days[|days| - 2], days[|days| - 1];
    assert days == init + [last];
    assert prev <= last;
    forall x | x in init ensures x <= prev {
      var i :| 0 <= i < |init| && init[i] == x;
      assert init[i] == days[i];
    }
  }

  /** In a non-decreasing history the run ending at the last day is exactly the
      block of consecutive calendar days ending there that all occur in it. */
  lemma {:induction false} RunLengthCounts(days: seq<int>)
    requires |days| >= 1 && NonDecreasing(days)
    ensures var last, k := days[|days| - 1], RunLength(days);
      && k >= 1
      && (forall d :: last - k < d <= last ==> d in days)
      && last - k !in days
    decreases |days|
  {
    if |days| == 1 {
      assert days == [days[0]];
    } else {
      var init := days[..|days| - 1];
      DropLastNonDecreasing(days);
      RunLengthCounts(init);
      assert init[|init| - 1] == days[|days| - 2];
      ExtendRun(days, RunLength(init), RunLength(days));
    }
  }

  /** From settings without a last day, the settings after a history hold its
      last day and its run length. */
  lemma {:induction false} SettingsAfterRunLength(s: Settings, days: seq<int>)
    requires LastDate(s) == None && |days| >= 1
    ensures LastDate(SettingsAfter(s, days)) == Some(days[|days| - 1])
    ensures StoredStreak(SettingsAfter(s, days)) == RunLength(days)
    decreases |days|
  {
    SettingsAfterStep(s, days);
    var init := days[..|days| - 1];
    if |days| == 1 {
      assert init == [];
    } else {
      SettingsAfterRunLength(s, init);
      assert init[|init| - 1] == days[|days| - 2];
    }
  }

  /** Starting from settings that have no streak yet, after activity on each
      day of a non-decreasing history the stored streak is the number of
      consecutive calendar days, ending at the last day, on which there was
      activity: every one of those days occurs in the history and the day
      before them does not. */
  lemma {:induction false} StreakCountsConsecutiveDays(s: Settings, days: seq<int>)
    requires LastDate(s) == None
    requires |days| >= 1 && NonDecreasing(days)
    ensures var last := days[|days| - 1];
      var k := StoredStreak(SettingsAfter(s, days));
      && LastDate(SettingsAfter(s, days)) == Some(last)
      && k >= 1
      && (forall d :: last - k < d <= last ==> d in days)
      && last - k !in days
  {
    SettingsAfterRunLength(s, days);
    RunLengthCounts(days);
  }
}

=== FILE: text.dfy ===
/** The string primitives of the JavaScript runtime that the core leans on:
    `String.prototype.trim`, `Number.prototype.toString` on non-negative
    integers, `padStart` and splitting at a ':' separator. Strings are
    `seq<char>` of Unicode scalar values. */
module Text {
  import opened Common

  /** The characters `trim` removes: ECMAScript WhiteSpace (TAB, VT, FF,
      SPACE, NBSP, ZWNBSP and every Space_Separator) and LineTerminator
      (LF, CR, LINE SEPARATOR, PARAGRAPH SEPARATOR). */
  predicate IsWhitespace(c: char) {
    || c == '\t' || c == '\n' || c == '\U{000B}' || c == '\U{000C}' || c == '\r'
    || c == ' ' || c == '\U{00A0}' || c == '\U{1680}'
    || ('\U{2000}' <= c <= '\U{200A}')
    || c == '\U{2028}' || c == '\U{2029}' || c == '\U{202F}' || c == '\U{205F}'
    || c == '\U{3000}' || c == '\U{FEFF}'
  }

  /** The number of whitespace characters `s` starts with. */
  function LeadingWhitespace(s: string): (n: nat)
    ensures n <= |s|
    ensures forall k :: 0 <= k < n ==> IsWhitespace(s[k])
    ensures n < |s| ==> !IsWhitespace(s[n])
  {
    if s != [] && IsWhitespace(s[0]) then 1 + LeadingWhitespace(s[1..]) else 0
  }

  /** The number of whitespace characters `s` ends with. */
  function TrailingWhitespace(s: string): (n: nat)
    ensures n <= |s|
    ensures forall k :: |s| - n <= k < |s| ==> IsWhitespace(s[k])
    ensures n < |s| ==> !IsWhitespace(s[|s| - n - 1])
  {
    if s != [] && IsWhitespace(s[|s| - 1]) then 1 + TrailingWhitespace(s[..|s| - 1]) else 0
  }

  /** The span `Trim` keeps: it starts after the leading whitespace, everything
      after it is whitespace, and a non-empty span starts and ends with a
      character that is not whitespace. */
  lemma {:induction false} TrimSpan(s: string, i: nat, j: int)
    requires i == LeadingWhitespace(s) && j == |s| - TrailingWhitespace(s[i..])
    ensures i <= j <= |s|
    ensures forall k :: j <= k < |s| ==> IsWhitespace(s[k])
    ensures i < j ==> !IsWhitespace(s[i]) && !IsWhitespace(s[j - 1])
  {
    var t := s[i..];
    assert forall k :: j <= k < |s| ==> s[k] == t[k - i];
    if i < j {
      assert s[j - 1] == t[|t| - TrailingWhitespace(t) - 1];
    }
  }

  /** `String.prototype.trim`: `s` without leading and trailing whitespace. */
  function Trim(s: string): (r: string)
    ensures |r| <= |s|
    ensures r == [] || (!IsWhitespace(r[0]) && !IsWhitespace(r[|r| - 1]))
    ensures exists i, j ::
              && 0 <= i <= j <= |s| && r == s[i..j]
              && (forall k :: 0 <= k < i ==> IsWhitespace(s[k]))
              && (forall k :: j <= k < |s| ==> IsWhitespace(s[k]))
  {
    var i := LeadingWhitespace(s);
    var j := |s| - TrailingWhitespace(s[i..]);
    TrimSpan(s, i, j);
    s[i..j]
  }

  /** A string is trimmed when `Trim` leaves it alone. */
  predicate IsTrimmed(s: string) {
    s == [] || (!IsWhitespace(s[0]) && !IsWhitespace(s[|s| - 1]))
  }

  /** JavaScript truthiness of `s.trim()`: false exactly for whitespace-only strings. */
  predicate IsBlank(s: string) {
    Trim(s) == []
  }

  /** `Trim` yields a trimmed string, and trimming that again changes nothing. */
  lemma TrimIdempotent(s: string)
    ensures IsTrimmed(Trim(s))
    ensures Trim(Trim(s)) == Trim(s)
  {
    var r := Trim(s);
    if r != [] {
      assert LeadingWhitespace(r) == 0;
      assert r[0..] == r;
      assert TrailingWhitespace(r) == 0;
    }
  }

  /** A string is blank exactly when every one of its characters is whitespace. */
  lemma BlankIffAllWhitespace(s: string)
    ensures IsBlank(s) <==> forall i :: 0 <= i < |s| ==> IsWhitespace(s[i])
  {
    var i := LeadingWhitespace(s);
    if i < |s| {
      var t := s[i..];
      assert t[0] == s[i];
      assert TrailingWhitespace(t) < |t|;
    }
  }

  // ---------------------------------------------------------------------
  // Decimal digits

  predicate IsDigit(c: char) {
    '0' <= c <= '9'
  }

  predicate AllDigits(s: string) {
    forall i :: 0 <= i < |s| ==> IsDigit(s[i])
  }

  function DigitChar(d: nat): (c: char)
    requires d < 10
    ensures IsDigit(c)
  {
    ['0', '1', '2', '3', '4', '5', '6', '7', '8', '9'][d]
  }

  function DigitValue(c: char): (d: nat)
    requires IsDigit(c)
    ensures d < 10 && DigitChar(d) == c
  {
    (c as int - '0' as int) as nat
  }

  /** The value of a string of decimal digits, most significant first
      (leading zeros allowed; the empty string reads as 0). */
  function DecimalValue(s: string): nat
    requires AllDigits(s)
  {
    if s == [] then 0
    else 10 * DecimalValue(s[..|s| - 1]) + DigitValue(s[|s| - 1])
  }

  /** `n.toString()` for a non-negative integer `n`. */
  function NatToDecimal(n: nat): (s: string)
    ensures AllDigits(s) && 1 <= |s|
  {
    if n < 10 then [DigitChar(n)]
    else NatToDecimal(n / 10) + [DigitChar(n % 10)]
  }

  /** Reading back the decimal text of `n` gives `n`, and that text has no
      superfluous leading zero. */
  lemma {:induction false} DecimalRoundTrip(n: nat)
    ensures DecimalValue(NatToDecimal(n)) == n
    ensures NatToDecimal(n)[0] == '0' ==> n == 0
  {
    var s := NatToDecimal(n);
    if n >= 10 {
      DecimalRoundTrip(n / 10);
      assert s[..|s| - 1] == NatToDecimal(n / 10);
      assert s[0] == NatToDecimal(n / 10)[0];
    }
  }

  /** Distinct numbers have distinct decimal texts. */
  lemma DecimalInjective(m: nat, n: nat)
    requires m != n
    ensures NatToDecimal(m) != NatToDecimal(n)
  {
    DecimalRoundTrip(m);
    DecimalRoundTrip(n);
  }

  /** The decimal text of `n` has at most two characters exactly when `n < 100`. */
  lemma {:induction false} DecimalLength(n: nat)
    ensures |NatToDecimal(n)| == 1 <==> n < 10
    ensures |NatToDecimal(n)| == 2 <==> 10 <= n < 100
  {
    if n >= 10 {
      DecimalLength(n / 10);
    }
  }

  /** A leading zero does not change the value of a digit string. */
  lemma {:induction false} LeadingZero(s: string)
    requires AllDigits(s)
    ensures AllDigits("0" + s) && DecimalValue("0" + s) == DecimalValue(s)
  {
    if s != [] {
      var t := "0" + s;
      assert t[..|t| - 1] == "0" + s[..|s| - 1];
      LeadingZero(s[..|s| - 1]);
    }
  }

  /** `k` copies of the character `c`. */
  function Repeat(c: char, k: nat): (r: string)
    ensures |r| == k
    ensures forall i :: 0 <= i < k ==> r[i] == c
  {
    if k == 0 then [] else [c] + Repeat(c, k - 1)
  }

  /** `s.padStart(width, c)` for a one-character pad string: `s` prefixed
      with as many copies of `c` as it lacks to reach `width` characters. */
  function PadStart(s: string, width: nat, c: char): (r: string)
    ensures |r| == if |s| >= width then |s| else width
    ensures r[|r| - |s|..] == s
    ensures forall i :: 0 <= i < |r| - |s| ==> r[i] == c
  {
    if |s| >= width then s else Repeat(c, width - |s|) + s
  }

  /** Any number of leading zeros leaves the value of a digit string alone. */
  lemma {:induction false} LeadingZeros(s: string, k: nat)
    requires AllDigits(s)
    ensures AllDigits(Repeat('0', k) + s)
    ensures DecimalValue(Repeat('0', k) + s) == DecimalValue(s)
    decreases k
  {
    if k > 0 {
      var z := Repeat('0', k - 1);
      LeadingZeros(s, k - 1);
      LeadingZero(z + s);
      assert Repeat('0', k) == "0" + z;
      assert ("0" + z) + s == "0" + (z + s);
    } else {
      assert Repeat('0', k) + s == s;
    }
  }

  /** Padding a digit string with '0' keeps its value. */
  lemma {:induction false} PadZeroValue(s: string, width: nat)
    requires AllDigits(s)
    ensures AllDigits(PadStart(s, width, '0'))
    ensures DecimalValue(PadStart(s, width, '0')) == DecimalValue(s)
  {
    if |s| < width {
      LeadingZeros(s, width - |s|);
    }
  }

  // ---------------------------------------------------------------------
  // Splitting at ':'

  /** The text before and after the first ':' of `s`, or `None` when `s` has none. */
  function SplitAtColon(s: string): (r: Option<(string, string)>)
    ensures r.None? <==> ':' !in s
    ensures r.Some? ==> s == r.value.0 + ":" + r.value.1 && ':' !in r.value.0
  {
    if s == [] then None
    else if s[0] == ':' then Some(([], s[1..]))
    else match SplitAtColon(s[1..])
      case None => None
      case Some((a, b)) => Some(([s[0]] + a, b))
  }

  /** Splitting a joined text at the colon recovers its two halves, as long as
      the first half holds no colon. */
  lemma {:induction false} SplitJoin(a: string, b: string)
    requires ':' !in a
    ensures SplitAtColon(a + ":" + b) == Some((a, b))
  {
    if a != [] {
      assert (a + ":" + b)[1..] == a[1..] + ":" + b;
      SplitJoin(a[1..], b);
      assert [a[0]] + a[1..] == a;
    } else {
      assert (a + ":" + b)[1..] == b;
    }
  }

  /** A digit string holds no colon. */
  lemma DigitsHaveNoColon(s: string)
    requires AllDigits(s)
    ensures ':' !in s
  {
  }
}

=== FILE: timer.dfy ===
/** The countdown of src/components/MeditationTimer.tsx: the per-second tick
    with its completion event, play/pause, reset, the reset on a new duration,
    and the `mm:ss` text of the remaining time. Time is in whole seconds. */
module MeditationTimer {
  import opened Common
  import opened Text

  /** The component state together with its `duration` prop. */
  datatype Timer = Timer(duration: nat, timeLeft: nat, running: bool)

  /** The timer invariant: the time left never exceeds the duration. */
  predicate TimerOk(t: Timer) {
    t.timeLeft <= t.duration
  }

  /** The state the component mounts with. */
  function Mount(duration: nat): (t: Timer)
    ensures TimerOk(t) && !t.running && t.timeLeft == duration
  {
    Timer(duration, duration, false)
  }

  /** A tick's new state and whether it fired `onComplete`. */
  datatype TickResult = TickResult(timer: Timer, completed: bool)

  /** The `setTimeLeft` updater: at one second or less, stop at 0 and fire
      `onComplete`; otherwise count down one second. */
  function Tick(t: Timer): (r: TickResult)
    ensures t.timeLeft <= 1 ==> r.timer == Timer(t.duration, 0, false) && r.completed
    ensures t.timeLeft > 1 ==> r.timer == t.(timeLeft := t.timeLeft - 1) && !r.completed
    ensures r.timer.timeLeft < t.timeLeft || t.timeLeft == 0
  {
    if t.timeLeft <= 1 then TickResult(t.(timeLeft := 0, running := false), true)
    else TickResult(t.(timeLeft := t.timeLeft - 1), false)
  }

  /** One second of wall-clock time: the interval only exists while the timer
      runs with time left. */
  function Step(t: Timer): (r: TickResult)
    ensures !(t.running && t.timeLeft > 0) ==> r == TickResult(t, false)
    ensures t.running && t.timeLeft > 0 ==> r == Tick(t)
    ensures TimerOk(t) ==> TimerOk(r.timer)
    ensures r.completed ==> r.timer.timeLeft == 0 && !r.timer.running
  {
    if t.running && t.timeLeft > 0 then Tick(t) else TickResult(t, false)
  }

  /** `handlePlayPause`: only the running flag changes. */
  function PlayPause(t: Timer): (r: Timer)
    ensures r.running == !t.running
    ensures r.timeLeft == t.timeLeft && r.duration == t.duration
  {
    t.(running := !t.running)
  }

  /** `handleReset`: stop, with the whole duration left. */
  function Reset(t: Timer): (r: Timer)
    ensures !r.running && r.timeLeft == r.duration == t.duration
    ensures TimerOk(r)
  {
    Timer(t.duration, t.duration, false)
  }

  /** The effect that runs when the `duration` prop changes: stop, with the
      whole new duration left. */
  function ChangeDuration(t: Timer, duration: nat): (r: Timer)
    ensures !r.running && r.timeLeft == r.duration == duration
    ensures TimerOk(r)
  {
    Timer(duration, duration, false)
  }

  /** The state after `n` seconds, and how often `onComplete` fired. */
  datatype RunResult = RunResult(timer: Timer, completions: nat)

  function Run(t: Timer, n: nat): (r: RunResult)
    ensures TimerOk(t) ==> TimerOk(r.timer)
    decreases n
  {
    if n == 0 then RunResult(t, 0)
    else
      var s := Step(t);
      var rest := Run(s.timer, n - 1);
      RunResult(rest.timer, rest.completions + (if s.completed then 1 else 0))
  }

  /** A stopped timer stays as it is and never completes. */
  lemma {:induction false} StoppedStaysPut(t: Timer, n: nat)
    requires !t.running
    ensures Run(t, n) == RunResult(t, 0)
    decreases n
  {
    if n > 0 {
      StoppedStaysPut(t, n - 1);
    }
  }

  /** Started with `j >= 1` seconds left, the timer counts down to 0, stops, and
      fires `onComplete` exactly once, however long it is left running after. */
  lemma {:induction false} RunsToCompletion(t: Timer, m: nat)
    requires t.running && t.timeLeft >= 1
    ensures Run(t, t.timeLeft + m) == RunResult(t.(timeLeft := 0, running := false), 1)
    decreases t.timeLeft
  {
    var n := t.timeLeft + m;
    var s := Step(t);
    if t.timeLeft == 1 {
      StoppedStaysPut(s.timer, n - 1);
    } else {
      RunsToCompletion(s.timer, m);
    }
  }

  /** Before its last second a started timer has not completed. */
  lemma {:induction false} NoEarlyCompletion(t: Timer, k: nat)
    requires t.running && k < t.timeLeft
    ensures Run(t, k) == RunResult(t.(timeLeft := t.timeLeft - k), 0)
    decreases k
  {
    if k > 0 {
      NoEarlyCompletion(Step(t).timer, k - 1);
    }
  }

  // ---------------------------------------------------------------------
  // mm:ss

  /** One field of the `mm:ss` text: `n.toString().padStart(2, '0')`. It reads
      back as `n`, and it has two digits exactly when `n < 100`. */
  function Field(n: nat): (f: string)
    ensures AllDigits(f) && |f| >= 2 && DecimalValue(f) == n
    ensures n < 100 <==> |f| == 2
    ensures |f| > 2 ==> f[0] != '0'
  {
    PadZeroValue(NatToDecimal(n), 2);
    DecimalRoundTrip(n);
    DecimalLength(n);
    PadStart(NatToDecimal(n), 2, '0')
  }

  /** `formatTime`: whole minutes and remaining seconds, each left-padded with
      '0' to at least two digits, joined by ':'. The text has at least five
      characters with the ':' before the two seconds digits, and below 100
      minutes it is exactly `MM:SS`. */
  function FormatTime(seconds: nat): (t: string)
    ensures |t| >= 5 && t[|t| - 3] == ':'
    ensures seconds < 6000 ==> |t| == 5
  {
    Field(seconds / 60) + ":" + Field(seconds % 60)
  }

  /** `t` is `mm:ss` text showing `minutes` and `secs`: the two characters
      after the ':' are digits reading as `secs`, and the text before it is
      at least two digits reading as `minutes`, with no leading zero beyond
      the padding. */
  predicate ShowsTime(t: string, minutes: nat, secs: nat) {
    && |t| >= 5 && t[|t| - 3] == ':'
    && var mm, ss := t[..|t| - 3], t[|t| - 2..];
    && AllDigits(ss) && DecimalValue(ss) == secs
    && AllDigits(mm) && DecimalValue(mm) == minutes
    && (|mm| > 2 ==> mm[0] != '0')
  }

  /** Two fields joined by ':' show the values they read as. */
  lemma {:induction false} JoinShowsTime(mm: string, ss: string, minutes: nat, secs: nat)
    requires |ss| == 2 && AllDigits(ss) && DecimalValue(ss) == secs
    requires |mm| >= 2 && AllDigits(mm) && DecimalValue(mm) == minutes
    requires |mm| > 2 ==> mm[0] != '0'
    ensures ShowsTime(mm + ":" + ss, minutes, secs)
  {
    var t := mm + ":" + ss;
    assert t[..|t| - 3] == mm;
    assert t[|t| - 2..] == ss;
  }

  /** The text of `seconds` shows its whole minutes and its remaining
      seconds, so 75 seconds is "01:15" and never "00:75". */
  lemma {:induction false} FormatTimeFields(seconds: nat)
    ensures ShowsTime(FormatTime(seconds), seconds / 60, seconds % 60)
  {
    var minutes, secs := seconds / 60, seconds % 60;
    assert FormatTime(seconds) == Field(minutes) + ":" + Field(secs);
    JoinShowsTime(Field(minutes), Field(secs), minutes, secs);
  }

  /** Reads `mm:ss` text back as a number of seconds. */
  function ParseTime(text: string): Option<nat> {
    match SplitAtColon(text)
    case None => None
    case Some((mm, ss)) =>
      if mm != [] && ss != [] && AllDigits(mm) && AllDigits(ss)
      then Some(60 * DecimalValue(mm) + DecimalValue(ss))
      else None
  }

  /** Two non-empty digit fields joined by ':' read as minutes and seconds. */
  lemma {:induction false} ParseTimeFields(mm: string, ss: string, minutes: nat, secs: nat)
    requires mm != [] && ss != [] && AllDigits(mm) && AllDigits(ss)
    requires DecimalValue(mm) == minutes && DecimalValue(ss) == secs
    ensures ParseTime(mm + ":" + ss) == Some(60 * minutes + secs)
  {
    DigitsHaveNoColon(mm);
    SplitJoin(mm, ss);
  }

  /** The text of every duration reads back as that duration: minutes times 60
      plus seconds. */
  lemma {:induction false} FormatTimeRoundTrip(seconds: nat)
    ensures ParseTime(FormatTime(seconds)) == Some(seconds)
  {
    var minutes, secs := seconds / 60, seconds % 60;
    assert 60 * minutes + secs == seconds;
    assert FormatTime(seconds) == Field(minutes) + ":" + Field(secs);
    ParseTimeFields(Field(minutes), Field(secs), minutes, secs);
  }
}

=== FILE: wavesounds.dfy ===
/** The frequency-sound page of src/pages/WaveFrequencySounds.tsx: at most one
    sound is active at a time, each card's button toggles its own sound, and a
    global mute flag sits beside it. */
module WaveSounds {
  import opened Common

  datatype Sound = Sound(name: string, frequency: string)

  /** `frequencySounds`, in display order. */
  const Sounds: seq<Sound> := [
    Sound("Theta Waves", "4-8 Hz"),
    Sound("Alpha Waves", "8-12 Hz"),
    Sound("Delta Waves", "0.5-4 Hz"),
    Sound("Gamma Waves", "30-100 Hz"),
    Sound("Schumann Resonance", "7.83 Hz"),
    Sound("528 Hz Love", "528 Hz")
  ]

  /** The page state: the one active sound, if any, and the mute flag. */
  datatype Panel = Panel(active: Option<nat>, muted: bool)

  /** The page invariant: an active sound is one of the cards. */
  predicate PanelOk(p: Panel) {
    p.active.Some? ==> p.active.value < |Sounds|
  }

  /** The sounds playing, as a set. */
  function Playing(p: Panel): set<nat> {
    if p.active.Some? then {p.active.value} else {}
  }

  /** `handleSoundToggle(index)`: the active sound stops; any other becomes the
      only active one. */
  function ToggleSound(p: Panel, index: nat): (r: Panel)
    requires index < |Sounds|
    ensures p.active == Some(index) ==> Playing(r) == {}
    ensures p.active != Some(index) ==> Playing(r) == {index}
    ensures |Playing(r)| <= 1
    ensures PanelOk(r) && r.muted == p.muted
  {
    if p.active == Some(index) then p.(active := None) else p.(active := Some(index))
  }

  /** The global mute button: the active sound is untouched. */
  function ToggleMute(p: Panel): (r: Panel)
    ensures r.muted == !p.muted && r.active == p.active
  {
    p.(muted := !p.muted)
  }

  /** From silence, toggling a sound twice is silence again; switching from one
      sound to another leaves only the second playing. */
  lemma ToggleRoundTrips(p: Panel, i: nat, j: nat)
    requires i < |Sounds| && j < |Sounds| && i != j
    ensures p.active.None? ==> ToggleSound(ToggleSound(p, i), i) == p
    ensures Playing(ToggleSound(ToggleSound(p, i), j)) == {j}
  {
  }
}
